=== FILE: README.md ===
# pyqlizator client core in Dafny

pyqlizator is a client for a database server. It speaks a request/reply
protocol of msgpack values over one TCP socket. This project models the part
of the client with real invariants:

- **Converter registry.** It is the class-wide pair of maps on `Cursor`:
  - runtime type to "to primitive" function, used as msgpack's `default` when packing;
  - wire type name to "from primitive" function, used on every column value of a row.
- **Reply interpretation in the cursor.** The first decoded value of a reply
  is the header. A non-zero status raises; otherwise the header's
  `rowcount` and `columns` are cached on the cursor. Every later value becomes
  a row dict keyed by column name, and each cell goes through the incoming
  converter. The same reading serves several calls:
  - lazily for `fetchiter`/`fetchone`;
  - eagerly for `execute`/`fetchall`/`executescript`;
  - once per parameter set for `executemany`.
- **The connection.**
  - Sending packs first and then writes the request.
  - Every caught socket failure drops the socket reference (the connection
    becomes `closed`) and raises `Error` code 100 (`NETWORK_ERROR`) with the
    cause.
  - The status check of the connect and drop handshakes accepts exactly one
    header with status 0. Two or more values are code 101 (`SERVER_ERROR`).
    Before a second value, a clean end with no value or bytes the decoder
    rejects are also code 101, while a socket failure is code 100.
  - `close` follows the same closed-state rules.
- **The chunk rule of `Socket.recv`.** It stops at an empty read or right after
  a read shorter than the buffer size.

The modules follow the program:

- `Values`: the Python values that cross the wire.
  - A dict is an insertion-ordered list of entries.
  - `dict(pairs)`/`update` keep each key's first position and its last value.
  - An entry list that repeats a key is read, by lookup and by iteration, as
    the dict Python would build from it. That is also what the decoder hands
    over for a wire map with a repeated key.
  - The module also has `.get`, `iter()`, truthiness and `== 0`, where
    `False == 0`.
- `Errors`: pyqlizator's `Error(code, message, details, original_exception)`,
  and the other Python exceptions the code lets escape.
- `Converters`: the registry, and packing with `default=to_primitive`.
- `Transport`: `Socket.recv`.
- `Connection` and `Cursor`.

The network is an input. Each request meets an `Exchange`:

- either the send fails;
- or the reply decodes into a list of values, then ends cleanly, with a socket
  error, or with undecodable bytes.

A generator is modelled by the number of `next()` calls made on it. Nothing is
sent before the first call. Draining it (`list(...)`) is enough calls to reach
its end. Python's mutation of `self` becomes a returned state: a `Conn`, a
`CursorState`, or a registry.

Some behaviours of the code are easy to get wrong, and the model keeps them
as the code has them:

- **The status check differs between connection and cursor.**
  - At the connection, a missing `status` is raised as code None.
  - At the cursor, a missing `status` is code 1 (`UNKNOWN_ERROR`), and the
    error carries no details.
  - A header that is not a dict escapes as AttributeError, not as an
    "unrecognized reply".
  - Bytes the decoder rejects escape from a query as the decoder's error. In
    the connect and drop handshakes they become code 101, because the
    decoder's error is a ValueError and `_check_status` catches ValueError.
- **`header.get('message', default)` keeps a message that is present but
  None.** The default replaces only an absent key.
- **Missing `columns` after status 0.** The cursor stores `rowcount` and then
  raises KeyError, so the row count of a failed header stays.
- **Using a closed connection.** Sending on it or closing it again raises
  AttributeError (the socket reference is None). The code has no dedicated
  "connection closed" error.
- **Status codes 5.** `DATABASE_NOT_FOUND` and `INVALID_QUERY` are both 5 in
  the client. The model keeps that value.
- **Big ints.** msgpack encodes ints only from -2^63 to 2^64-1. A wider int
  is handed to `to_primitive` once.
  - With no converter for int, or one that returns another wide int, packing
    raises OverflowError.
  - A converter that returns an application object makes it raise TypeError.
  - The elements of a list or dict the converter returns are packed as usual,
    converters included.

## Model

| member | source | states |
|---|---|---|
| Values.Insert | pyqlizator/connection.py:103-104 | Assigning a key in a dict keeps keys unique. An existing key keeps its position and a new key is appended. Afterwards the key maps to the new value and every other key is unchanged. |
| Values.Update | pyqlizator/connection.py:104 | `update` keeps keys unique and leaves the old keys in place. New keys follow in the order they first occur in the update. A key takes the last value given for it in the update, and otherwise keeps its old value. |
| Values.FromPairs | pyqlizator/cursor.py:78-79 | Building a dict from pairs gives unique keys, exactly the pairs' keys, each at its first occurrence and in order. Each key holds the value of the last pair that carries it. |
| Converters.ToPrimitive | pyqlizator/cursor.py:25-32 | A value whose runtime type has a registered converter is converted by it. Any other value is returned unchanged. |
| Converters.FromPrimitive | pyqlizator/cursor.py:34-41 | A wire type name with a registered converter converts the value, and any other hashable name returns it unchanged. An unhashable name (a list or a dict) raises TypeError. |
| Converters.RegisterToPrimitiveEffect | pyqlizator/cursor.py:43-45 | Registering changes the outgoing conversion of exactly that runtime type. The newest registration wins and incoming conversions are untouched. |
| Converters.RegisterFromPrimitiveEffect | pyqlizator/cursor.py:47-49 | Registering changes the incoming conversion of exactly that wire type name. The newest registration wins and outgoing conversions are untouched. |
| Converters.EmptyRegistryConvertsNothing | pyqlizator/cursor.py:17-18 | Before anything is registered, every value goes out unchanged, and comes in unchanged under any hashable type name. |
| Converters.PackNative | pyqlizator/connection.py:56-57 | A value made only of wire-native parts is sent unchanged, and no converter is consulted. Wire-native means no application object and no int outside the 64-bit range, nested within the encoder's limit. |
| Converters.WideIntPacking | pyqlizator/connection.py:56-57 | An int outside the 64-bit range is packed as its int converter's output, with the converter already spent at the top level. With no converter for int, or one returning another wide int, packing raises OverflowError. A converter returning an application object makes it raise TypeError. |
| Converters.ConverterRoundTrip | pyqlizator/cursor.py:25-41 | An application object survives the trip when its outgoing converter yields a wire-native value and the matching incoming converter undoes it. Packing succeeds, and converting the packed value back under the wire type name gives the object. |
| Transport.Recv | pyqlizator/connection.py:20-31 | The chunks yielded are a prefix of the reads, and none is empty. Every chunk but the last is at least the buffer size, and exactly that size when no read exceeds it. Reading stops only at an empty read or after a short one. |
| Transport.RecvStopsAtFirstShortRead | pyqlizator/connection.py:20-31 | Maximality: every prefix of the reads with no empty read and no earlier short read is yielded in full. |
| Transport.DefaultShortReadEndsReading | pyqlizator/connection.py:20 | With the default buffer of 4096 bytes, a shorter first read is all the reader yields. |
| Connection.Failed | pyqlizator/connection.py:60-62 | A caught socket failure leaves the connection closed and raises code 100 with the cause as message. |
| Connection.Send | pyqlizator/connection.py:56-62 | The request is packed before anything else, so a packing error escapes with the connection unchanged. A closed connection raises AttributeError. A send failure closes the connection with code 100. On success the connection is unchanged and the packed value is what goes out. |
| Connection.Transmit | pyqlizator/connection.py:75-77 | A successful transmit leaves the connection open and unchanged and hands back the reply stream. A failure is exactly the send's failure, with the send's effect on the connection. |
| Connection.EndOfReply | pyqlizator/connection.py:64-73 | In a query's reply stream, reading past the last value succeeds exactly when the stream ended cleanly. A socket error closes the connection with code 100. Undecodable bytes escape as a decoder error with the connection unchanged. |
| Connection.HeaderStatus | pyqlizator/connection.py:96-100 | A dict header passes exactly when its status is 0 (or False). Any other status raises that status, a missing one as None, with the header's message and details or their defaults "no error message" and "no details". A non-dict header raises AttributeError. |
| Connection.CheckStatusOutcome | pyqlizator/connection.py:90-100 | The check succeeds exactly when the reply is one header with status 0 and a clean end. Code 101 is raised for two or more values, for no value with a clean end, and for undecodable bytes before a second value; the socket is kept in each case. A socket error before the second value closes the connection with code 100. Nothing else changes the connection. |
| Connection.ConnectRequest | pyqlizator/connection.py:102-104 | The connect request is a dict with unique keys: `endpoint`, `database`, then each option keyword not already present, in keyword order, at its first occurrence. Each key holds the option's value when an option names it, otherwise "connect" or the database path. |
| Connection.ConnectToDatabase | pyqlizator/connection.py:102-106 | The handshake succeeds exactly when the connection is open, the connect request packs and is sent, and the reply is one header with status 0 and a clean end. A send failure is exactly the send's error, and otherwise the outcome is the status check of the reply. Only a code-100 failure changes the connection, and only by closing it. |
| Connection.Open | pyqlizator/connection.py:45-54 | A socket that cannot be opened raises code 100 and leaves no socket. Construction succeeds exactly when the connect request packs, is sent, and draws one header with status 0 and a clean end. On success the socket is the one opened. After the socket opens, a send failure is exactly the send's error, and otherwise the outcome is the status check of the reply. A closed result always carries code 100. Name and path are kept either way. |
| Connection.DropDatabase | pyqlizator/connection.py:108-111 | Dropping succeeds exactly when the connection is open, the drop request is sent, and the reply is one header with status 0 and a clean end. A send failure is exactly the send's error, and otherwise the outcome is the status check of the reply. Only a code-100 failure changes the connection, and only by closing it. |
| Connection.DropRequest | pyqlizator/connection.py:109 | The drop request is a dict with exactly the keys `endpoint` and `database`, in that order, holding "drop" and the connection's path. |
| Connection.Close | pyqlizator/connection.py:83-85 | Closing succeeds exactly when the connection was open and the shutdown did not fail, and it leaves the connection closed. A failing close leaves the connection as it was. The name and path never change. |
| Connection.ClosedStaysClosed | pyqlizator/connection.py:56-85 | A closed connection refuses further use. Sending a request raises AttributeError in `_send`, and so does closing it again in `close`. Neither call changes the connection. |
| Connection.DatabaseIsPath | pyqlizator/connection.py:113-115 | `database` returns the path given to the constructor, not the database name, whether or not the constructor raised. Dropping the database or closing the connection does not change it. |
| Cursor.ProcessHeader | pyqlizator/cursor.py:66-75 | A non-zero status raises it with the header's message, or "no error message", and leaves the cursor untouched; a missing status is code 1. Status 0 stores the row count (-1 when absent) and then the columns. Missing columns raise KeyError with the row count already stored. A non-dict header raises AttributeError. |
| Cursor.Cell | pyqlizator/cursor.py:78-79 | One zipped position converts exactly when its column unpacks into a name and a type, the value converts under that type, and the name is hashable. Its pair is the name with the converted value. |
| Cursor.Cells | pyqlizator/cursor.py:77-79 | Zipping columns with a row succeeds exactly when every position up to the shorter length unpacks, converts and has a hashable name. Each pair is the column name with the incoming conversion of the value at the same position. |
| Cursor.ProcessData | pyqlizator/cursor.py:77-79 | Columns or data that cannot be iterated raise TypeError. Otherwise the result is the row of the two iterations, and a successful conversion is a dict. |
| Cursor.RowFacts | pyqlizator/cursor.py:78-79 | A row converts exactly when every zipped position does. Its keys are unique and are exactly the names of the first min(columns, values) columns. Each name holds the converted value of its last occurrence. |
| Cursor.RowOrder | pyqlizator/cursor.py:78-79 | A converted row lists its keys in column order, a repeated name at its first position. |
| Cursor.RowsFacts | pyqlizator/cursor.py:83-89 | After the header, each row is the conversion of the reply value at its position, in order, with at most one row per pull. A paused run used every pull. An exhausted run converted every value and met a clean end. A raising run either stopped at the first value that does not convert, raising its conversion error with the connection unchanged, or met a broken end and raised what reading past the last value raises. The connection changes only by losing its socket to a read failure, which raises code 100. |
| Cursor.RowsOutcome | pyqlizator/cursor.py:83-89 | With a pull for every value and one more, the reply decides the run. The first value that does not convert raises its conversion error after one row per earlier value. When all convert, there is one row per value, and the end of the reply decides between a clean finish and its error. |
| Cursor.LazyQuery | pyqlizator/cursor.py:81-89 | No pull sends nothing. The header is never yielded, and row i is the conversion of reply value i+1 under the columns of a header that passed. The generator ends cleanly only on a clean end, with one row per value after the header. A send failure raises before any row. A reply with no value ends as reading past its end does. A failing header raises its own failure at the first pull, with no row. After a passing header the pulls are the rows phase over the remaining values. Any change to the connection is a close with code 100. |
| Cursor.RowsMonotone | pyqlizator/cursor.py:83-89 | Fewer pulls yield a prefix of the rows of more pulls. Once the rows phase has ended, further pulls change nothing. |
| Cursor.LazyQueryMonotone | pyqlizator/cursor.py:81-89 | The same for the whole generator, header included. |
| Cursor.QueryRequest | pyqlizator/cursor.py:91-101 | The query request is a dict with the keys endpoint, operation, database, query, parameters, in that order. It holds "query", the operation code, the connection's database path, the SQL, and the single extra argument or an empty tuple. |
| Cursor.Eager | pyqlizator/cursor.py:102-103 | An eager query succeeds only on a clean end with a passing header. It returns one row per value after the header, in order, each the conversion of that value. The connection changes only by a close with code 100. |
| Cursor.EagerSucceeds | pyqlizator/cursor.py:102-103 | Conversely, a sent request whose reply has a passing header, convertible values and a clean end always succeeds. |
| Cursor.EagerFailure | pyqlizator/cursor.py:81-103 | What an eager query raises, case by case. A send failure raises the send's error. A reply with no value raises what reading past its end raises. A failing header raises its own failure. Otherwise the first value after the header that does not convert raises its conversion error. When all convert, a broken end raises its error. |
| Cursor.ParametersRule | pyqlizator/cursor.py:91-113 | Only exactly one extra argument is sent as the parameters, and any other count behaves like an empty tuple. `executescript` is `execute` without parameters. |
| Cursor.HeaderErrorStopsQuery | pyqlizator/cursor.py:69-72 | A header with a non-zero or missing status raises that code with the header's message, or "no error message", and no details. It does so before any row, both eagerly and at the first pull of the generator, and leaves the cursor and connection as they were. |
| Cursor.FetchIterAgreesWithFetchAll | pyqlizator/cursor.py:119-123 | Any consumer of `fetchiter` sees a prefix of what `fetchall` returns on the same reply. Draining it gives exactly the `fetchall` result, error or rows. |
| Cursor.FetchOneIsFirstRow | pyqlizator/cursor.py:115-117 | `fetchone` returns the first row `fetchall` would return, or None when there is none. |
| Cursor.FetchOneIgnoresRest | pyqlizator/cursor.py:115-117 | After a passing header, `fetchone` returns the conversion of the first value, or raises its conversion error, whatever follows it in the reply. A reply holding only the header gives None at a clean end and otherwise raises the end's error. |
| Cursor.ExecuteMany | pyqlizator/cursor.py:109-110 | A successful `executemany` returns one result per parameter set. |
| Cursor.SequentiallyAppend | pyqlizator/cursor.py:109-110 | For any statement run once per parameter set, one more set runs one more statement from the state the earlier ones left and appends its result. Once a run has raised, later sets are never run. |
| Cursor.ExecuteManyAppend | pyqlizator/cursor.py:109-110 | The same for `executemany`. Each later `execute` gets its set as the single parameter argument. Earlier effects on the connection and cursor stand. |
| Cursor.RowcountAfterQuery | pyqlizator/cursor.py:55-57 | A new cursor reports -1. After a successful query, `rowcount` is the header's row count, or -1 when the header has none. |
| Cursor.Description | pyqlizator/cursor.py:59-64 | Falsy cached columns describe as None. Otherwise there is one `(name, type, None, None, None, None, None)` per column, in order, and a column that does not unpack into two raises. |

## Left out

- msgpack's byte encoding and the streaming `Unpacker`: a reply is given already decoded, as its list of values plus how the stream ended. Packing is modelled only as far as `default=to_primitive`, the 64-bit int range and the nesting limit go.
- Socket creation, `settimeout`, `sendall` and `shutdown`: their failures are inputs (`connectFails`, `Exchange.SendFails`, `shutdownFails`). The default timeout of 2 seconds has no counterpart.
- Reading position across calls: each call gets its own `Exchange`. The model therefore does not show a `fetchone` or a partly consumed `fetchiter` leaving unread reply values on the socket for the next request.
- Floats, bytes and the other msgpack types: values are None, bool, int, str, list, dict and application objects.
- Python's numeric key equality (`1 == True == 1.0` as dict keys): keys are compared structurally.
- Converters that raise, and application objects that are iterable or hashable in unusual ways: converters are total functions, and objects are never iterable.
- Cursor.LazyQuery: the columns and the registry a row is converted with are those in force when the header was read. In Python, `_process_data` rereads both at every pull, so a converter registered between two `fetchiter` pulls changes the later rows there but not here.
- Converters.PackNative: a `Dict` whose entry list repeats a key is packed with its entries as listed. No Python dict has such a list, and lookups and iteration read it as the dict Python would build.
- Converters.FromPrimitive: a registered incoming converter is found only under a string type name. Non-string keys in that map are not modelled.
- `Connection.cursor()` and `Cursor.connection`: plain accessors with nothing to state.
- The `exceptions` module's string formatting and the package's `__init__` re-exports: they hold no logic of the core.

=== FILE: connection.dfy ===
/** The protocol session: one socket reference, requests packed and sent in one
    go, replies decoded into a stream of values, server statuses turned into
    errors, and every caught socket failure turned into error 100 and a closed
    connection. */
module Connection {
  import opened Wrappers
  import opened Values
  import opened Errors
  import opened Converters

  /** Client-side error codes. */
  const NETWORK_ERROR: int := 100
  const SERVER_ERROR: int := 101

  /** An open socket to `host:port`. */
  datatype Socket = Socket(host: string, port: int)

  /** `dbpath` is what requests name the database by; `dbname` is kept but
      never sent. */
  datatype Conn = Conn(dbname: Value, dbpath: Value, socket: Option<Socket>)

  /** How the decoded reply stream ended after its last complete value. */
  datatype Tail =
    | Complete            // the socket reader stopped normally
    | NetFail(cause: string)  // a socket error or timeout while reading
    | Garbled             // the decoder rejected the bytes

  /** What the network does with one request: the send fails, or the reply
      decodes into `objs` and then ends as `tail`. */
  datatype Exchange = SendFails(cause: string) | Replies(objs: seq<Value>, tail: Tail)

  /** The reply stream `transmit` hands back. */
  datatype Stream = Stream(objs: seq<Value>, tail: Tail)

  /** A connection-level call: the connection afterwards and what it returned or raised. */
  datatype Step<T> = Step(conn: Conn, result: Result<T, Failure>)

  /** `Connection.closed`. */
  predicate Closed(c: Conn)
  {
    c.socket.None?
  }

  /** `Connection.database`: the path, not the name. */
  function Database(c: Conn): Value
  {
    c.dbpath
  }

  /** The error raised for a caught socket failure, carrying its cause. */
  function NetworkError(cause: string): Error
  {
    Error(Int(NETWORK_ERROR), Str(cause), Nil, Some(cause))
  }

  function UnrecognizedReply(): Error
  {
    Error(Int(SERVER_ERROR), Str("unrecognized reply"), Nil, None)
  }

  /** The socket reference is dropped and error 100 raised. */
  function Failed<T>(c: Conn, cause: string): (s: Step<T>)
    ensures Closed(s.conn) && s.result == Failure(Raises(NetworkError(cause)))
  {
    Step(c.(socket := None), Failure(Raises(NetworkError(cause))))
  }

  /** `_send`: pack first (a packing error escapes as is), then send on the
      socket; returns the value put on the wire. */
  function Send(reg: Registry, c: Conn, data: Value, ex: Exchange): (s: Step<Value>)
    ensures s.result.Success? ==> s.conn == c && !Closed(c) && Pack(reg, data) == s.result
    ensures Pack(reg, data).Failure? ==> s == Step(c, Pack(reg, data))
    ensures Pack(reg, data).Success? && Closed(c) ==> s == Step(c, Failure(Crashes(AttributeError("send"))))
    ensures Pack(reg, data).Success? && !Closed(c) && ex.SendFails? ==> s == Failed(c, ex.cause)
  {
    match Pack(reg, data)
    case Failure(f) => Step(c, Failure(f))
    case Success(wire) =>
      if Closed(c) then Step(c, Failure(Crashes(AttributeError("send"))))
      else if ex.SendFails? then Failed(c, ex.cause)
      else Step(c, Success(wire))
  }

  /** `transmit`: send now, and hand back the reply stream, which is read only
      as the caller pulls from it. */
  function Transmit(reg: Registry, c: Conn, data: Value, ex: Exchange): (s: Step<Stream>)
    ensures s.result.Success? ==> s.conn == c && !Closed(c) && ex.Replies?
                                  && s.result.value == Stream(ex.objs, ex.tail)
    ensures s.result.Failure? ==> Send(reg, c, data, ex).result == Failure(s.result.error)
    ensures s.conn == Send(reg, c, data, ex).conn
  {
    var sent := Send(reg, c, data, ex);
    if sent.result.Failure? then Step(sent.conn, Failure(sent.result.error))
    else Step(sent.conn, Success(Stream(ex.objs, ex.tail)))
  }

  /** Pulling past the last decoded value of a reply: a read failure drops the
      socket and raises error 100, undecodable bytes escape as a decoder error. */
  function EndOfReply(c: Conn, tail: Tail): (s: Step<()>)
    ensures tail.Complete? <==> s == Step(c, Success(()))
    ensures tail.NetFail? ==> s == Failed(c, tail.cause)
    ensures tail.Garbled? ==> s == Step(c, Failure(Crashes(UnpackError)))
  {
    match tail
    case Complete => Step(c, Success(()))
    case NetFail(cause) => Failed(c, cause)
    case Garbled => Step(c, Failure(Crashes(UnpackError)))
  }

  /** The status rule for a single reply header: status 0 passes; any other
      status, a missing one (None) included, raises it with the message and
      details the header carries, or their defaults when the keys are absent. */
  function HeaderStatus(header: Value): (r: Result<(), Failure>)
    ensures !header.Dict? ==> r == Failure(Crashes(AttributeError("get")))
    ensures header.Dict? ==> (r.Success? <==> IsZero(GetOr(header.entries, Str("status"), Nil)))
    ensures header.Dict? && r.Failure? ==>
              r.error == Raises(Error(GetOr(header.entries, Str("status"), Nil),
                                      GetOr(header.entries, Str("message"), Str("no error message")),
                                      GetOr(header.entries, Str("details"), Str("no details")),
                                      None))
  {
    if !header.Dict? then Failure(Crashes(AttributeError("get")))
    else
      var status := GetOr(header.entries, Str("status"), Nil);
      if IsZero(status) then Success(())
      else
        Failure(Raises(Error(status,
                             GetOr(header.entries, Str("message"), Str("no error message")),
                             GetOr(header.entries, Str("details"), Str("no details")),
                             None)))
  }

  /** `_check_status`: unpacking the reply as exactly one header pulls the
      stream until it has seen two values or its end. The unpacking catches
      ValueError, which is also what the wire decoder raises on bytes it
      rejects, so a garbled reply counts as unrecognized; a read failure
      is the client's own error and passes through. */
  function CheckStatus(c: Conn, reply: Stream): Step<()>
  {
    if |reply.objs| >= 2 then Step(c, Failure(Raises(UnrecognizedReply())))
    else
      match reply.tail
      case Garbled => Step(c, Failure(Raises(UnrecognizedReply())))
      case NetFail(cause) => Failed(c, cause)
      case Complete =>
        if reply.objs == [] then Step(c, Failure(Raises(UnrecognizedReply())))
        else Step(c, HeaderStatus(reply.objs[0]))
  }

  /** The status check accepts exactly the replies made of one header with
      status 0 (read to a clean end); any other number of values, or bytes
      the decoder rejects, is error 101; a read failure raises error 100 and
      closes the connection; only a read failure changes the connection. */
  lemma CheckStatusOutcome(c: Conn, reply: Stream)
    ensures var s := CheckStatus(c, reply);
            && (s.result.Success? <==> |reply.objs| == 1 && reply.tail.Complete? && HeaderStatus(reply.objs[0]).Success?)
            && ((|reply.objs| != 1 && (|reply.objs| >= 2 || reply.tail.Complete?))
                  ==> s.result == Failure(Raises(UnrecognizedReply())))
            && (|reply.objs| < 2 && reply.tail.Garbled? ==> s == Step(c, Failure(Raises(UnrecognizedReply()))))
            && (|reply.objs| < 2 && reply.tail.NetFail? ==> s == Failed(c, reply.tail.cause))
            && (|reply.objs| == 1 && reply.tail.Complete? ==> s.result == HeaderStatus(reply.objs[0]))
            && (s.conn == c || (s.conn == c.(socket := None) && reply.tail.NetFail?))
  {
  }

  /** The connect request: the base keys, then the options merged over them. */
  function ConnectRequest(path: Value, options: seq<(string, Value)>): (r: Value)
    ensures r.Dict? && UniqueKeys(r.entries)
    ensures forall k :: Lookup(r.entries, k) ==
              if Lookup(Keywords(options), k).Some? then Lookup(Keywords(options), k)
              else if k == Str("endpoint") then Some(Str("connect"))
              else if k == Str("database") then Some(path)
              else None
    ensures Keys(r.entries) == [Str("endpoint"), Str("database")]
                               + NewKeys([Str("endpoint"), Str("database")], Keys(Keywords(options)))
  {
    var base := [(Str("endpoint"), Str("connect")), (Str("database"), path)];
    BaseEntries(base, "connect", path);
    Dict(Update(base, Keywords(options)))
  }

  /** The two keys every connection-level request starts with. */
  lemma BaseEntries(base: seq<(Value, Value)>, endpoint: string, path: Value)
    requires base == [(Str("endpoint"), Str(endpoint)), (Str("database"), path)]
    ensures Keys(base) == [Str("endpoint"), Str("database")] && UniqueKeys(base)
    ensures forall k :: Lookup(base, k) ==
              if k == Str("endpoint") then Some(Str(endpoint))
              else if k == Str("database") then Some(path)
              else None
  {
    var tail := [(Str("database"), path)];
    assert base[1..] == tail && tail[1..] == [];
    forall k
      ensures Lookup(base, k) ==
                if k == Str("endpoint") then Some(Str(endpoint))
                else if k == Str("database") then Some(path)
                else None
    {
      assert Lookup(tail[1..], k) == None;
      assert Lookup(tail, k) == if k == Str("database") then Some(path) else None;
    }
  }

  /** Keyword arguments as dict entries with string keys. */
  function Keywords(options: seq<(string, Value)>): (r: seq<(Value, Value)>)
    ensures |r| == |options|
    ensures forall i :: 0 <= i < |options| ==> r[i] == (Str(options[i].0), options[i].1)
  {
    seq(|options|, i requires 0 <= i < |options| => (Str(options[i].0), options[i].1))
  }

  /** The drop request, with no room for anything else. */
  function DropRequest(path: Value): (r: Value)
    ensures r.Dict? && UniqueKeys(r.entries)
    ensures Keys(r.entries) == [Str("endpoint"), Str("database")]
    ensures Lookup(r.entries, Str("endpoint")) == Some(Str("drop"))
    ensures Lookup(r.entries, Str("database")) == Some(path)
  {
    var base := [(Str("endpoint"), Str("drop")), (Str("database"), path)];
    BaseEntries(base, "drop", path);
    Dict(base)
  }

  /** `_connect_to_database`: its outcome is the status check of the reply to
      the connect request, and only a socket failure changes the connection. */
  function ConnectToDatabase(reg: Registry, c: Conn, options: seq<(string, Value)>, ex: Exchange): (s: Step<()>)
    ensures s.result.Success? <==>
              && !Closed(c) && ex.Replies? && Pack(reg, ConnectRequest(c.dbpath, options)).Success?
              && |ex.objs| == 1 && ex.tail.Complete? && HeaderStatus(ex.objs[0]).Success?
    ensures s.conn == c || s.conn == c.(socket := None)
    ensures var sent := Send(reg, c, ConnectRequest(c.dbpath, options), ex);
            && (sent.result.Failure? ==> s == Step(sent.conn, Failure(sent.result.error)))
            && (sent.result.Success? ==> s == CheckStatus(c, Stream(ex.objs, ex.tail)))
    ensures s.conn != c ==> s.result.Failure? && s.result.error.Raises? && s.result.error.error.code == Int(NETWORK_ERROR)
  {
    var sent := Transmit(reg, c, ConnectRequest(c.dbpath, options), ex);
    if sent.result.Failure? then Step(sent.conn, Failure(sent.result.error))
    else
      CheckStatusOutcome(sent.conn, sent.result.value);
      CheckStatus(sent.conn, sent.result.value)
  }

  /** The constructor: open the socket (its failure is caught and becomes
      error 100), then run the connect handshake. The returned connection is
      the object's state when the constructor returns or raises. */
  function Open(reg: Registry, host: string, port: int, dbname: Value, path: Value,
                options: seq<(string, Value)>, connectFails: Option<string>, ex: Exchange): (s: Step<()>)
    ensures s.conn.dbname == dbname && s.conn.dbpath == path
    ensures connectFails.Some? ==> s == Failed(Conn(dbname, path, None), connectFails.value)
    ensures s.result.Success? ==> s.conn == Conn(dbname, path, Some(Socket(host, port)))
    ensures s.result.Success? <==>
              && connectFails.None? && ex.Replies?
              && Pack(reg, ConnectRequest(path, options)).Success?
              && |ex.objs| == 1 && ex.tail.Complete? && HeaderStatus(ex.objs[0]).Success?
    ensures var c := Conn(dbname, path, Some(Socket(host, port)));
            var sent := Send(reg, c, ConnectRequest(path, options), ex);
            && (connectFails.None? && sent.result.Failure? ==> s == Step(sent.conn, Failure(sent.result.error)))
            && (connectFails.None? && sent.result.Success? ==> s == CheckStatus(c, Stream(ex.objs, ex.tail)))
    ensures Closed(s.conn) ==> s.result.Failure? && s.result.error.Raises? && s.result.error.error.code == Int(NETWORK_ERROR)
  {
    if connectFails.Some? then Failed(Conn(dbname, path, None), connectFails.value)
    else
      ConnectToDatabase(reg, Conn(dbname, path, Some(Socket(host, port))), options, ex)
  }

  /** `drop_database`: its outcome is the status check of the reply to the
      drop request, and only a socket failure changes the connection. */
  function DropDatabase(reg: Registry, c: Conn, ex: Exchange): (s: Step<()>)
    ensures s.result.Success? <==>
              && !Closed(c) && ex.Replies? && Pack(reg, DropRequest(c.dbpath)).Success?
              && |ex.objs| == 1 && ex.tail.Complete? && HeaderStatus(ex.objs[0]).Success?
    ensures s.conn == c || s.conn == c.(socket := None)
    ensures var sent := Send(reg, c, DropRequest(c.dbpath), ex);
            && (sent.result.Failure? ==> s == Step(sent.conn, Failure(sent.result.error)))
            && (sent.result.Success? ==> s == CheckStatus(c, Stream(ex.objs, ex.tail)))
    ensures s.conn != c ==> s.result.Failure? && s.result.error.Raises? && s.result.error.error.code == Int(NETWORK_ERROR)
  {
    var sent := Transmit(reg, c, DropRequest(c.dbpath), ex);
    if sent.result.Failure? then Step(sent.conn, Failure(sent.result.error))
    else
      CheckStatusOutcome(sent.conn, sent.result.value);
      CheckStatus(sent.conn, sent.result.value)
  }

  /** `database` names the path the connection was opened with, never the
      database name, and no later call changes it. */
  lemma DatabaseIsPath(reg: Registry, host: string, port: int, dbname: Value, path: Value,
                       options: seq<(string, Value)>, connectFails: Option<string>, ex: Exchange,
                       ex2: Exchange, shutdownFails: Option<string>)
    ensures var after := Open(reg, host, port, dbname, path, options, connectFails, ex).conn;
            && Database(after) == path
            && Database(DropDatabase(reg, after, ex2).conn) == path
            && Database(Close(after, shutdownFails).conn) == path
  {
  }

  /** `close`: shut the socket down and drop the reference. On a connection
      that is already closed the call raises AttributeError; a shutdown error
      escapes and leaves the socket reference in place. */
  function Close(c: Conn, shutdownFails: Option<string>): (s: Step<()>)
    ensures s.result.Success? ==> Closed(s.conn)
    ensures s.result.Success? <==> !Closed(c) && shutdownFails.None?
    ensures s.result.Failure? ==> s.conn == c
    ensures s.conn.dbpath == c.dbpath && s.conn.dbname == c.dbname
  {
    if Closed(c) then Step(c, Failure(Crashes(AttributeError("close"))))
    else if shutdownFails.Some? then Step(c, Failure(Crashes(OSError(shutdownFails.value))))
    else Step(c.(socket := None), Success(()))
  }

  /** A closed connection refuses further use: sending a request that packs
      raises AttributeError, as does closing it again, and neither call
      changes it. */
  lemma ClosedStaysClosed(reg: Registry, c: Conn, data: Value, ex: Exchange, shutdownFails: Option<string>)
    requires Closed(c) && Pack(reg, data).Success?
    ensures Send(reg, c, data, ex) == Step(c, Failure(Crashes(AttributeError("send"))))
    ensures Transmit(reg, c, data, ex).conn == c && Transmit(reg, c, data, ex).result.Failure?
    ensures Close(c, shutdownFails) == Step(c, Failure(Crashes(AttributeError("close"))))
  {
  }
}

=== FILE: converters.dfy ===
/** The class-wide converter registry of the cursor: one map keyed by runtime
    type for values going out, one keyed by wire type name for column values
    coming in; and the packer, which calls the outgoing converter on any value
    the wire format cannot carry natively. */
module Converters {
  import opened Wrappers
  import opened Values
  import opened Errors

  /** A registered converter. It is a total function here: converters that
      raise are not modelled. */
  type Converter = Value -> Value

  datatype Registry = Registry(toPrimitive: map<PyType, Converter>, fromPrimitive: map<string, Converter>)

  /** Both maps start empty. */
  const Empty: Registry := Registry(map[], map[])

  /** `Cursor.to_primitive(obj)`: the converter registered for `type(obj)`, or
      `obj` itself when there is none. */
  function ToPrimitive(reg: Registry, obj: Value): (r: Value)
    ensures TypeOf(obj) !in reg.toPrimitive ==> r == obj
    ensures TypeOf(obj) in reg.toPrimitive ==> r == reg.toPrimitive[TypeOf(obj)](obj)
  {
    if TypeOf(obj) in reg.toPrimitive then reg.toPrimitive[TypeOf(obj)](obj) else obj
  }

  /** `Cursor.from_primitive(value, type_name)`: the converter registered for the
      wire type name, or `value` itself when there is none. The type name is a
      dict key, so a list or dict there raises TypeError (unhashable) instead
      of missing. */
  function FromPrimitive(reg: Registry, value: Value, typeName: Value): (r: Result<Value, Failure>)
    ensures !Hashable(typeName) ==> r.Failure? && r.error.Crashes? && r.error.exc.TypeError?
    ensures Hashable(typeName) && !(typeName.Str? && typeName.s in reg.fromPrimitive) ==> r == Success(value)
    ensures typeName.Str? && typeName.s in reg.fromPrimitive ==> r == Success(reg.fromPrimitive[typeName.s](value))
  {
    if !Hashable(typeName) then Failure(Crashes(TypeError("unhashable type")))
    else if typeName.Str? && typeName.s in reg.fromPrimitive then Success(reg.fromPrimitive[typeName.s](value))
    else Success(value)
  }

  function RegisterToPrimitive(reg: Registry, t: PyType, fn: Converter): Registry
  {
    reg.(toPrimitive := reg.toPrimitive[t := fn])
  }

  function RegisterFromPrimitive(reg: Registry, typeName: string, fn: Converter): Registry
  {
    reg.(fromPrimitive := reg.fromPrimitive[typeName := fn])
  }

  /** Registering an outgoing converter changes the conversion of exactly that
      runtime type, the newest registration wins, and incoming conversions are
      untouched. */
  lemma RegisterToPrimitiveEffect(reg: Registry, t: PyType, fn: Converter)
    ensures forall v :: ToPrimitive(RegisterToPrimitive(reg, t, fn), v)
                        == if TypeOf(v) == t then fn(v) else ToPrimitive(reg, v)
    ensures forall v, n :: FromPrimitive(RegisterToPrimitive(reg, t, fn), v, n) == FromPrimitive(reg, v, n)
    ensures forall g :: RegisterToPrimitive(RegisterToPrimitive(reg, t, g), t, fn) == RegisterToPrimitive(reg, t, fn)
  {
  }

  /** The same for incoming converters, keyed by wire type name. */
  lemma RegisterFromPrimitiveEffect(reg: Registry, typeName: string, fn: Converter)
    ensures forall v, n :: FromPrimitive(RegisterFromPrimitive(reg, typeName, fn), v, n)
                           == if n == Str(typeName) then Success(fn(v)) else FromPrimitive(reg, v, n)
    ensures forall v :: ToPrimitive(RegisterFromPrimitive(reg, typeName, fn), v) == ToPrimitive(reg, v)
    ensures forall g :: RegisterFromPrimitive(RegisterFromPrimitive(reg, typeName, g), typeName, fn)
                        == RegisterFromPrimitive(reg, typeName, fn)
  {
  }

  /** Before anything is registered, no value is converted in either direction. */
  lemma EmptyRegistryConvertsNothing(v: Value, typeName: Value)
    ensures ToPrimitive(Empty, v) == v
    ensures Hashable(typeName) ==> FromPrimitive(Empty, v, typeName) == Success(v)
  {
  }

  // ---------------------------------------------------------------------------
  // Packing with `default=to_primitive`

  /** The wire encoder's default nesting limit (`DEFAULT_RECURSE_LIMIT` of msgpack). */
  const NestLimit: int := 511

  function Levels(limit: int): nat
  {
    if limit < 0 then 0 else limit + 1
  }

  /** `msgpack.packb(v, default=to_primitive)` seen as a value transformation:
      native values are kept; an application object, or an int outside the
      64-bit range, is replaced by its converter's output, at most once per
      node; packing fails when that output is still not packable or the
      nesting limit is exceeded. */
  function Pack(reg: Registry, v: Value): (r: Result<Value, Failure>)
    ensures r.Success? ==> Native(r.value)
  {
    PackNode(reg, v, NestLimit, false)
  }

  function PackNode(reg: Registry, v: Value, limit: int, defaultUsed: bool): (r: Result<Value, Failure>)
    ensures r.Success? ==> Native(r.value)
    decreases Levels(limit), if defaultUsed then 0 else 1, 0
  {
    if limit < 0 then Failure(Crashes(ValueError("recursion limit exceeded")))
    else
      match v
      case Arr(xs) =>
        (match PackItems(reg, xs, limit - 1)
         case Success(ys) => Success(Arr(ys))
         case Failure(f) => Failure(f))
      case Dict(es) =>
        (match PackEntries(reg, es, limit - 1)
         case Success(fs) => Success(Dict(fs))
         case Failure(f) => Failure(f))
      case Obj(_, _) =>
        if defaultUsed then Failure(Crashes(TypeError("can not serialize")))
        else PackNode(reg, ToPrimitive(reg, v), limit, true)
      case Int(i) =>
        if WireInt(i) then Success(v)
        else if defaultUsed then Failure(Crashes(OverflowError("Integer value out of range")))
        else PackNode(reg, ToPrimitive(reg, v), limit, true)
      case _ => Success(v)
  }

  function PackItems(reg: Registry, xs: seq<Value>, limit: int): (r: Result<seq<Value>, Failure>)
    ensures r.Success? ==> |r.value| == |xs| && forall i :: 0 <= i < |xs| ==> Native(r.value[i])
    decreases Levels(limit), 2, |xs|
  {
    if xs == [] then Success([])
    else
      match PackNode(reg, xs[0], limit, false)
      case Failure(f) => Failure(f)
      case Success(y) =>
        match PackItems(reg, xs[1..], limit)
        case Failure(f) => Failure(f)
        case Success(ys) => Success([y] + ys)
  }

  function PackEntries(reg: Registry, es: seq<(Value, Value)>, limit: int): (r: Result<seq<(Value, Value)>, Failure>)
    ensures r.Success? ==> |r.value| == |es|
    ensures r.Success? ==> forall i :: 0 <= i < |es| ==> Native(r.value[i].0) && Native(r.value[i].1)
    decreases Levels(limit), 2, |es|
  {
    if es == [] then Success([])
    else
      match PackNode(reg, es[0].0, limit, false)
      case Failure(f) => Failure(f)
      case Success(k) =>
        match PackNode(reg, es[0].1, limit, false)
        case Failure(f) => Failure(f)
        case Success(v) =>
          match PackEntries(reg, es[1..], limit)
          case Failure(f) => Failure(f)
          case Success(rest) => Success([(k, v)] + rest)
  }

  /** A native value within the nesting limit goes out unchanged; converters
      are never consulted for it. */
  lemma {:induction false} PackNative(reg: Registry, v: Value, limit: int, defaultUsed: bool)
    requires Native(v) && FitsIn(v, limit)
    ensures PackNode(reg, v, limit, defaultUsed) == Success(v)
    decreases Levels(limit), 0, 0
  {
    match v
    case Arr(xs) => PackItemsNative(reg, xs, limit - 1);
    case Dict(es) => PackEntriesNative(reg, es, limit - 1);
    case _ =>
  }

  lemma {:induction false} PackItemsNative(reg: Registry, xs: seq<Value>, limit: int)
    requires forall i :: 0 <= i < |xs| ==> Native(xs[i]) && FitsIn(xs[i], limit)
    ensures PackItems(reg, xs, limit) == Success(xs)
    decreases Levels(limit), 1, |xs|
  {
    if xs != [] {
      PackNative(reg, xs[0], limit, false);
      PackItemsNative(reg, xs[1..], limit);
      assert [xs[0]] + xs[1..] == xs;
    }
  }

  lemma {:induction false} PackEntriesNative(reg: Registry, es: seq<(Value, Value)>, limit: int)
    requires forall i :: 0 <= i < |es| ==> Native(es[i].0) && FitsIn(es[i].0, limit)
    requires forall i :: 0 <= i < |es| ==> Native(es[i].1) && FitsIn(es[i].1, limit)
    ensures PackEntries(reg, es, limit) == Success(es)
    decreases Levels(limit), 1, |es|
  {
    if es != [] {
      PackNative(reg, es[0].0, limit, false);
      PackNative(reg, es[0].1, limit, false);
      PackEntriesNative(reg, es[1..], limit);
      assert [(es[0].0, es[0].1)] + es[1..] == es;
    }
  }

  /** An int outside the 64-bit range goes out only through a converter
      registered for int. Its output is packed with the converter already
      spent at the top: an out-of-range int there raises OverflowError (as
      with no converter registered at all) and an application object raises
      TypeError, while the elements of a list or dict it returns are packed
      as usual, converters included. */
  lemma WideIntPacking(reg: Registry, i: int)
    requires !WireInt(i)
    ensures Pack(reg, Int(i)) == PackNode(reg, ToPrimitive(reg, Int(i)), NestLimit, true)
    ensures IntType !in reg.toPrimitive ==>
              Pack(reg, Int(i)) == Failure(Crashes(OverflowError("Integer value out of range")))
    ensures ToPrimitive(reg, Int(i)).Int? && !WireInt(ToPrimitive(reg, Int(i)).i) ==>
              Pack(reg, Int(i)) == Failure(Crashes(OverflowError("Integer value out of range")))
    ensures ToPrimitive(reg, Int(i)).Obj? ==> Pack(reg, Int(i)) == Failure(Crashes(TypeError("can not serialize")))
    ensures Pack(Empty, Int(i)).Failure?
  {
  }

  /** An application object whose class has an outgoing converter producing a
      native value, and whose wire type name has an incoming converter undoing
      it, survives the trip: packing sends the converter's output, and the
      incoming conversion of that output gives the object back. */
  lemma ConverterRoundTrip(reg: Registry, x: Value, typeName: string)
    requires x.Obj? && TypeOf(x) in reg.toPrimitive && typeName in reg.fromPrimitive
    requires var w := reg.toPrimitive[TypeOf(x)](x);
             Native(w) && FitsIn(w, NestLimit) && reg.fromPrimitive[typeName](w) == x
    ensures Pack(reg, x).Success?
    ensures FromPrimitive(reg, Pack(reg, x).value, Str(typeName)) == Success(x)
  {
    PackNative(reg, ToPrimitive(reg, x), NestLimit, true);
  }
}

=== FILE: cursor.dfy ===
/** The cursor: it issues one query at a time, reads the first decoded value
    of the reply as the header, and turns every later value into a row dict
    keyed by column name. The class-wide converter registry is passed in. */
module Cursor {
  import opened Wrappers
  import opened Values
  import opened Errors
  import opened Converters
  import opened Connection

  // Server commands.
  const EXECUTE: int := 1
  const FETCH: int := 2
  // Server reply status codes; the last two share a value.
  const OK: int := 0
  const UNKNOWN_ERROR: int := 1
  const INVALID_REQUEST: int := 2
  const DESERIALIZATION_ERROR: int := 3
  const DATABASE_OPENING_ERROR: int := 4
  const DATABASE_NOT_FOUND: int := 5
  const INVALID_QUERY: int := 5

  /** What the cursor caches from the latest header: `_rowcount` and `_cols`. */
  datatype CursorState = CursorState(rowcount: Value, cols: Value)

  /** A new cursor: row count -1, no columns. */
  const Fresh: CursorState := CursorState(Int(-1), Nil)

  /** The cursor state after a header, and what the header raised, if anything. */
  datatype HeaderOutcome = HeaderOutcome(cur: CursorState, failure: Option<Failure>)

  /** `_process_header`. A missing status counts as UNKNOWN_ERROR; a status
      other than 0 raises it with the header's message (or its default) and
      leaves the cursor untouched; status 0 stores the row count (-1 when
      absent) and then the columns, whose absence raises KeyError after the
      row count is already stored. */
  function ProcessHeader(cur: CursorState, header: Value): (h: HeaderOutcome)
    ensures !header.Dict? ==> h == HeaderOutcome(cur, Some(Crashes(AttributeError("get"))))
    ensures header.Dict? && Lookup(header.entries, Str("status")).None? ==>
              h == HeaderOutcome(cur, Some(Raises(Error(Int(UNKNOWN_ERROR),
                                                      GetOr(header.entries, Str("message"), Str("no error message")),
                                                      Nil, None))))
    ensures header.Dict? ==> var status := GetOr(header.entries, Str("status"), Int(UNKNOWN_ERROR));
              && (!IsZero(status) ==>
                    h == HeaderOutcome(cur, Some(Raises(Error(status,
                                                              GetOr(header.entries, Str("message"), Str("no error message")),
                                                              Nil, None)))))
              && (IsZero(status) ==>
                    && h.cur.rowcount == GetOr(header.entries, Str("rowcount"), Int(-1))
                    && (match Lookup(header.entries, Str("columns"))
                        case Some(cols) => h.failure.None? && h.cur.cols == cols
                        case None => h.failure == Some(Crashes(KeyError(Str("columns")))) && h.cur.cols == cur.cols))
  {
    if !header.Dict? then HeaderOutcome(cur, Some(Crashes(AttributeError("get"))))
    else
      var status := GetOr(header.entries, Str("status"), Int(UNKNOWN_ERROR));
      if !IsZero(status) then
        var message := GetOr(header.entries, Str("message"), Str("no error message"));
        HeaderOutcome(cur, Some(Raises(Error(status, message, Nil, None))))
      else
        var counted := cur.(rowcount := GetOr(header.entries, Str("rowcount"), Int(-1)));
        match Lookup(header.entries, Str("columns"))
        case None => HeaderOutcome(counted, Some(Crashes(KeyError(Str("columns")))))
        case Some(cols) => HeaderOutcome(counted.(cols := cols), None)
  }

  // ---------------------------------------------------------------------------
  // Rows

  /** Unpacking one column entry as `(colname, coltype)`. */
  function Column(col: Value): Result<(Value, Value), Failure>
  {
    match Iter(col)
    case None => Failure(Crashes(TypeError("cannot unpack non-iterable object")))
    case Some(parts) =>
      if |parts| == 2 then Success((parts[0], parts[1]))
      else Failure(Crashes(ValueError("wrong number of values to unpack")))
  }

  /** One zipped position converts without raising: the column unpacks, its
      type name is hashable, and so is its name. */
  predicate CellOk(reg: Registry, col: Value, value: Value)
  {
    && Column(col).Success?
    && FromPrimitive(reg, value, Column(col).value.1).Success?
    && Hashable(Column(col).value.0)
  }

  function Min(a: nat, b: nat): nat
  {
    if a < b then a else b
  }

  /** The `(colname, converted value)` pairs of `zip(cols, data)`, produced and
      checked in order; the shorter side decides how many there are. */
  function Cells(reg: Registry, cs: seq<Value>, ds: seq<Value>): (r: Result<seq<(Value, Value)>, Failure>)
    ensures r.Success? <==> forall i :: 0 <= i < Min(|cs|, |ds|) ==> CellOk(reg, cs[i], ds[i])
    ensures r.Success? ==>
              && |r.value| == Min(|cs|, |ds|)
              && forall i :: 0 <= i < Min(|cs|, |ds|) ==>
                   r.value[i] == (Column(cs[i]).value.0, FromPrimitive(reg, ds[i], Column(cs[i]).value.1).value)
    decreases |cs|
  {
    if cs == [] || ds == [] then Success([])
    else
      var rest := Cells(reg, cs[1..], ds[1..]);
      assert forall i :: 1 <= i < |cs| ==> cs[i] == cs[1..][i - 1];
      assert forall i :: 1 <= i < |ds| ==> ds[i] == ds[1..][i - 1];
      match Cell(reg, cs[0], ds[0])
      case Failure(f) => Failure(f)
      case Success(pair) => if rest.Failure? then rest else Success([pair] + rest.value)
  }

  /** One zipped position: unpack the column, convert the value by the column's
      type name, and check that the name can key a dict. */
  function Cell(reg: Registry, col: Value, value: Value): (r: Result<(Value, Value), Failure>)
    ensures r.Success? <==> CellOk(reg, col, value)
    ensures r.Success? ==> r.value == (Column(col).value.0, FromPrimitive(reg, value, Column(col).value.1).value)
  {
    match Column(col)
    case Failure(f) => Failure(f)
    case Success(nameAndType) =>
      match FromPrimitive(reg, value, nameAndType.1)
      case Failure(f) => Failure(f)
      case Success(v) =>
        if !Hashable(nameAndType.0) then Failure(Crashes(TypeError("unhashable type")))
        else Success((nameAndType.0, v))
  }

  /** `_process_data`: the row dict built from `zip(cols, data)`. */
  function ProcessData(reg: Registry, cols: Value, data: Value): (r: Result<Value, Failure>)
    ensures Iter(cols).None? || Iter(data).None? ==> r.Failure? && r.error.Crashes? && r.error.exc.TypeError?
    ensures Iter(cols).Some? && Iter(data).Some? ==> r == Row(reg, Iter(cols).value, Iter(data).value)
    ensures r.Success? ==> r.value.Dict?
  {
    match Iter(cols)
    case None => Failure(Crashes(TypeError("zip argument #1 must support iteration")))
    case Some(cs) =>
      match Iter(data)
      case None => Failure(Crashes(TypeError("zip argument #2 must support iteration")))
      case Some(ds) => Row(reg, cs, ds)
  }

  /** The row dict of the iterated columns and values. */
  function Row(reg: Registry, cs: seq<Value>, ds: seq<Value>): Result<Value, Failure>
  {
    match Cells(reg, cs, ds)
    case Failure(f) => Failure(f)
    case Success(pairs) => Success(Dict(FromPairs(pairs)))
  }

  /** The names of the first `n` columns, in order. */
  function ColumnNames(cs: seq<Value>, n: nat): (r: seq<Value>)
    requires n <= |cs| && forall i :: 0 <= i < n ==> Column(cs[i]).Success?
    ensures |r| == n && forall i :: 0 <= i < n ==> r[i] == Column(cs[i]).value.0
  {
    seq(n, i requires 0 <= i < n && forall j :: 0 <= j < n ==> Column(cs[j]).Success? => Column(cs[i]).value.0)
  }

  /** The row of iterated columns and values: it converts exactly when every
      zipped position does; only the first min(|cs|, |ds|) columns name a
      cell; each name holds the converted value of its last position, so a
      repeated column name keeps the later value. */
  lemma {:induction false} RowFacts(reg: Registry, cs: seq<Value>, ds: seq<Value>)
    ensures Row(reg, cs, ds).Success? <==> forall i :: 0 <= i < Min(|cs|, |ds|) ==> CellOk(reg, cs[i], ds[i])
    ensures Row(reg, cs, ds).Success? ==>
              var row := Row(reg, cs, ds).value;
              var n := Min(|cs|, |ds|);
              && row.Dict?
              && UniqueKeys(row.entries)
              && (forall k :: k in Keys(row.entries) <==>
                    exists i :: 0 <= i < n && CellOk(reg, cs[i], ds[i]) && Column(cs[i]).value.0 == k)
              && (forall i :: 0 <= i < n && CellOk(reg, cs[i], ds[i])
                              && (forall j :: i < j < n ==> Column(cs[j]).value.0 != Column(cs[i]).value.0)
                    ==> Lookup(row.entries, Column(cs[i]).value.0)
                        == Some(FromPrimitive(reg, ds[i], Column(cs[i]).value.1).value))
  {
    var cells := Cells(reg, cs, ds);
    if cells.Success? {
      CellsAsDict(reg, cs, ds, cells.value);
    }
  }

  /** A row's keys are the column names in column order, a repeated name at
      its first position. */
  lemma {:induction false} RowOrder(reg: Registry, cs: seq<Value>, ds: seq<Value>)
    requires Row(reg, cs, ds).Success?
    ensures var n := Min(|cs|, |ds|);
            && (forall i :: 0 <= i < n ==> Column(cs[i]).Success?)
            && Keys(Row(reg, cs, ds).value.entries) == NewKeys([], ColumnNames(cs, n))
  {
    CellsOrder(reg, cs, ds, Cells(reg, cs, ds).value);
  }

  lemma {:induction false} CellsOrder(reg: Registry, cs: seq<Value>, ds: seq<Value>, pairs: seq<(Value, Value)>)
    requires Cells(reg, cs, ds) == Success(pairs)
    ensures forall i :: 0 <= i < Min(|cs|, |ds|) ==> Column(cs[i]).Success?
    ensures Keys(FromPairs(pairs)) == NewKeys([], ColumnNames(cs, Min(|cs|, |ds|)))
  {
    var n := Min(|cs|, |ds|);
    assert forall i :: 0 <= i < n ==> CellOk(reg, cs[i], ds[i]);
    assert Keys(pairs) == ColumnNames(cs, n);
  }

  lemma {:induction false} CellsAsDict(reg: Registry, cs: seq<Value>, ds: seq<Value>, pairs: seq<(Value, Value)>)
    requires Cells(reg, cs, ds) == Success(pairs)
    ensures var n := Min(|cs|, |ds|);
            && (forall k :: k in Keys(FromPairs(pairs)) <==> exists i :: 0 <= i < n && Column(cs[i]).value.0 == k)
            && (forall i :: 0 <= i < n && (forall j :: i < j < n ==> Column(cs[j]).value.0 != Column(cs[i]).value.0)
                  ==> Lookup(FromPairs(pairs), Column(cs[i]).value.0)
                      == Some(FromPrimitive(reg, ds[i], Column(cs[i]).value.1).value))
  {
    CellsKeys(reg, cs, ds, pairs);
    CellsLookup(reg, cs, ds, pairs);
  }

  lemma {:induction false} CellsKeys(reg: Registry, cs: seq<Value>, ds: seq<Value>, pairs: seq<(Value, Value)>)
    requires Cells(reg, cs, ds) == Success(pairs)
    ensures forall k :: k in Keys(FromPairs(pairs)) <==> exists i :: 0 <= i < Min(|cs|, |ds|) && Column(cs[i]).value.0 == k
  {
    var n := Min(|cs|, |ds|);
    assert |pairs| == n;
    forall k
      ensures k in Keys(pairs) <==> exists i :: 0 <= i < n && Column(cs[i]).value.0 == k
    {
      if k in Keys(pairs) {
        var i :| 0 <= i < |pairs| && Keys(pairs)[i] == k;
        assert pairs[i].0 == Column(cs[i]).value.0;
      }
      if exists i :: 0 <= i < n && Column(cs[i]).value.0 == k {
        var i :| 0 <= i < n && Column(cs[i]).value.0 == k;
        assert Keys(pairs)[i] == k;
      }
    }
  }

  lemma {:induction false} CellsLookup(reg: Registry, cs: seq<Value>, ds: seq<Value>, pairs: seq<(Value, Value)>)
    requires Cells(reg, cs, ds) == Success(pairs)
    ensures var n := Min(|cs|, |ds|);
            forall i :: 0 <= i < n && (forall j :: i < j < n ==> Column(cs[j]).value.0 != Column(cs[i]).value.0)
              ==> Lookup(FromPairs(pairs), Column(cs[i]).value.0)
                  == Some(FromPrimitive(reg, ds[i], Column(cs[i]).value.1).value)
  {
    var n := Min(|cs|, |ds|);
    forall i | 0 <= i < n && (forall j :: i < j < n ==> Column(cs[j]).value.0 != Column(cs[i]).value.0)
      ensures Lookup(FromPairs(pairs), Column(cs[i]).value.0)
              == Some(FromPrimitive(reg, ds[i], Column(cs[i]).value.1).value)
    {
      assert forall j :: i < j < |pairs| ==> pairs[j].0 != pairs[i].0;
      LookupLast(pairs, i);
    }
  }

  // ---------------------------------------------------------------------------
  // The row generator

  /** How a consumer's pulls on the row generator ended: the reply ran out, the
      consumer stopped pulling, or the generator raised. */
  datatype Stop = Exhausted | Paused | Threw(failure: Failure)

  /** The connection and cursor after the pulls, and the rows they produced. */
  datatype Run = Run(conn: Conn, cur: CursorState, rows: seq<Value>, stop: Stop)

  /** Pulling past the last value of the reply. */
  function Finish(conn: Conn, cur: CursorState, rows: seq<Value>, tail: Tail): Run
  {
    var end := EndOfReply(conn, tail);
    Run(end.conn, cur, rows, if end.result.Failure? then Threw(end.result.error) else Exhausted)
  }

  /** Turns one reply value into a row, or raises. */
  type RowConversion = Value -> Result<Value, Failure>

  /** The conversion the cursor applies after a header: `_process_data` with
      the columns just cached. */
  function RowsOf(reg: Registry, cur: CursorState): RowConversion
  {
    v => ProcessData(reg, cur.cols, v)
  }

  /** The rows phase after the header: each pull converts the next value. */
  function Rows(convert: RowConversion, conn: Conn, cur: CursorState, objs: seq<Value>, tail: Tail, pulls: nat): Run
    decreases |objs|
  {
    if pulls == 0 then Run(conn, cur, [], Paused)
    else if objs == [] then Finish(conn, cur, [], tail)
    else
      match convert(objs[0])
      case Failure(f) => Run(conn, cur, [], Threw(f))
      case Success(row) =>
        var rest := Rows(convert, conn, cur, objs[1..], tail, pulls - 1);
        rest.(rows := [row] + rest.rows)
  }

  /** What a run of the rows phase yields: each row is the conversion of the
      value at its position, in order, at most one per pull; a paused run used
      every pull; an exhausted one converted every value and met a clean end;
      one that raised stopped at the first value that does not convert and
      raised its conversion error, or met a broken end and raised what pulling
      past the last value raises; the connection changes only by losing its
      socket to a read failure, which raises error 100. */
  lemma {:induction false} RowsFacts(convert: RowConversion, conn: Conn, cur: CursorState, objs: seq<Value>, tail: Tail, pulls: nat)
    ensures var r := Rows(convert, conn, cur, objs, tail, pulls);
            && r.cur == cur
            && |r.rows| <= pulls && |r.rows| <= |objs|
            && (forall i :: 0 <= i < |r.rows| ==> convert(objs[i]) == Success(r.rows[i]))
            && (r.stop.Paused? ==> |r.rows| == pulls && r.conn == conn)
            && (r.stop.Exhausted? ==> |r.rows| == |objs| && tail.Complete? && r.conn == conn)
            && (r.stop.Threw? ==>
                  if |r.rows| < |objs| then
                    && convert(objs[|r.rows|]).Failure? && r.stop.failure == convert(objs[|r.rows|]).error
                    && r.conn == conn
                  else
                    && !tail.Complete? && EndOfReply(conn, tail).result.Failure?
                    && r.stop.failure == EndOfReply(conn, tail).result.error && r.conn == EndOfReply(conn, tail).conn)
            && (r.conn != conn ==>
                  tail.NetFail? && r.conn == conn.(socket := None) && r.stop == Threw(Raises(NetworkError(tail.cause))))
            && (pulls > |objs| ==> !r.stop.Paused?)
    decreases |objs|
  {
    if pulls > 0 && objs != [] && convert(objs[0]).Success? {
      RowsFacts(convert, conn, cur, objs[1..], tail, pulls - 1);
      assert forall i :: 1 <= i < |objs| ==> objs[i] == objs[1..][i - 1];
    }
  }

  /** With a pull for every value and one for the end, the run is decided by
      the reply alone: the first value that does not convert raises its
      conversion error; when every value converts, the end of the reply
      decides between a clean finish and its error. */
  lemma {:induction false} RowsOutcome(convert: RowConversion, conn: Conn, cur: CursorState, objs: seq<Value>, tail: Tail, pulls: nat)
    requires pulls > |objs|
    ensures var r := Rows(convert, conn, cur, objs, tail, pulls);
            && (forall i :: 0 <= i < |objs| && convert(objs[i]).Failure? && AllConvert(convert, objs[..i]) ==>
                  r.conn == conn && |r.rows| == i && r.stop == Threw(convert(objs[i]).error))
            && (AllConvert(convert, objs) ==>
                  && |r.rows| == |objs| && r.conn == EndOfReply(conn, tail).conn
                  && r.stop == if tail.Complete? then Exhausted else Threw(EndOfReply(conn, tail).result.error))
  {
    RowsFacts(convert, conn, cur, objs, tail, pulls);
    var r := Rows(convert, conn, cur, objs, tail, pulls);
    forall i | 0 <= i < |objs| && convert(objs[i]).Failure? && AllConvert(convert, objs[..i])
      ensures r.conn == conn && |r.rows| == i && r.stop == Threw(convert(objs[i]).error)
    {
      assert forall j :: 0 <= j < i ==> objs[..i][j] == objs[j];
    }
  }

  /** Every value of `objs` converts. */
  predicate AllConvert(convert: RowConversion, objs: seq<Value>)
  {
    forall j :: 0 <= j < |objs| ==> convert(objs[j]).Success?
  }

  /** The connection lost its socket and error 100 was raised with the
      failure's cause. */
  predicate ClosedByNetwork(before: Conn, after: Conn, stop: Stop)
  {
    && after == before.(socket := None)
    && stop.Threw? && stop.failure.Raises?
    && stop.failure.error.code == Int(NETWORK_ERROR)
    && stop.failure.error.cause.Some?
    && stop.failure.error.message == Str(stop.failure.error.cause.value)
  }

  /** `_lazy_query` consumed by `pulls` calls of `next()`. The first call sends
      the request and processes the header, which is never yielded; every row
      comes from a later reply value, in order. */
  function LazyQuery(reg: Registry, conn: Conn, cur: CursorState, request: Value, ex: Exchange, pulls: nat): (r: Run)
    ensures pulls == 0 ==> r == Run(conn, cur, [], Paused)
    ensures |r.rows| <= pulls
    ensures r.rows != [] ==>
              && ex.Replies? && ex.objs != []
              && ProcessHeader(cur, ex.objs[0]) == HeaderOutcome(r.cur, None)
              && |r.rows| < |ex.objs|
              && forall i :: 0 <= i < |r.rows| ==> ProcessData(reg, r.cur.cols, ex.objs[i + 1]) == Success(r.rows[i])
    ensures r.stop.Paused? ==> |r.rows| == pulls
    ensures r.stop.Exhausted? ==>
              && ex.Replies? && ex.tail.Complete? && r.conn == conn
              && if ex.objs == [] then r.rows == [] && r.cur == cur else |r.rows| == |ex.objs| - 1
    ensures ex.Replies? && pulls > |ex.objs| ==> !r.stop.Paused?
    ensures r.conn != conn ==> ClosedByNetwork(conn, r.conn, r.stop)
    ensures pulls > 0 && Transmit(reg, conn, request, ex).result.Failure? ==>
              r == Run(Transmit(reg, conn, request, ex).conn, cur, [], Threw(Transmit(reg, conn, request, ex).result.error))
    ensures pulls > 0 && Transmit(reg, conn, request, ex).result.Success? && ex.objs == [] ==>
              r == Finish(conn, cur, [], ex.tail)
    ensures pulls > 0 && Transmit(reg, conn, request, ex).result.Success? && ex.objs != [] ==>
              var h := ProcessHeader(cur, ex.objs[0]);
              && (h.failure.Some? ==> r == Run(conn, h.cur, [], Threw(h.failure.value)))
              && (h.failure.None? ==> r == Rows(RowsOf(reg, h.cur), conn, h.cur, ex.objs[1..], ex.tail, pulls))
  {
    if pulls == 0 then Run(conn, cur, [], Paused)
    else
      var sent := Transmit(reg, conn, request, ex);
      if sent.result.Failure? then Run(sent.conn, cur, [], Threw(sent.result.error))
      else
        var stream := sent.result.value;
        if stream.objs == [] then Finish(sent.conn, cur, [], stream.tail)
        else
          var h := ProcessHeader(cur, stream.objs[0]);
          if h.failure.Some? then Run(sent.conn, h.cur, [], Threw(h.failure.value))
          else
            RowsFacts(RowsOf(reg, h.cur), sent.conn, h.cur, stream.objs[1..], stream.tail, pulls);
            Rows(RowsOf(reg, h.cur), sent.conn, h.cur, stream.objs[1..], stream.tail, pulls)
  }

  /** Pulling more never changes what fewer pulls produced: the rows of fewer
      pulls are a prefix, and once the generator has finished, extra pulls
      change nothing. */
  lemma {:induction false} RowsMonotone(convert: RowConversion, conn: Conn, cur: CursorState, objs: seq<Value>, tail: Tail, k: nat, k2: nat)
    requires k <= k2
    ensures Rows(convert, conn, cur, objs, tail, k).rows <= Rows(convert, conn, cur, objs, tail, k2).rows
    ensures !Rows(convert, conn, cur, objs, tail, k).stop.Paused? ==>
              Rows(convert, conn, cur, objs, tail, k) == Rows(convert, conn, cur, objs, tail, k2)
  {
    RowsPrefix(convert, conn, cur, objs, tail, k, k2);
    if !Rows(convert, conn, cur, objs, tail, k).stop.Paused? {
      RowsFinished(convert, conn, cur, objs, tail, k, k2);
    }
  }

  lemma {:induction false} RowsPrefix(convert: RowConversion, conn: Conn, cur: CursorState, objs: seq<Value>, tail: Tail,
                                      k: nat, k2: nat)
    requires k <= k2
    ensures Rows(convert, conn, cur, objs, tail, k).rows <= Rows(convert, conn, cur, objs, tail, k2).rows
    decreases |objs|
  {
    if k > 0 && objs != [] && convert(objs[0]).Success? {
      RowsPrefix(convert, conn, cur, objs[1..], tail, k - 1, k2 - 1);
    }
  }

  lemma {:induction false} RowsFinished(convert: RowConversion, conn: Conn, cur: CursorState, objs: seq<Value>, tail: Tail,
                                        k: nat, k2: nat)
    requires k <= k2
    requires !Rows(convert, conn, cur, objs, tail, k).stop.Paused?
    ensures Rows(convert, conn, cur, objs, tail, k) == Rows(convert, conn, cur, objs, tail, k2)
    decreases |objs|
  {
    if objs != [] && convert(objs[0]).Success? {
      RowsFinished(convert, conn, cur, objs[1..], tail, k - 1, k2 - 1);
    }
  }

  lemma LazyQueryMonotone(reg: Registry, conn: Conn, cur: CursorState, request: Value, ex: Exchange, k: nat, k2: nat)
    requires k <= k2
    ensures LazyQuery(reg, conn, cur, request, ex, k).rows <= LazyQuery(reg, conn, cur, request, ex, k2).rows
    ensures !LazyQuery(reg, conn, cur, request, ex, k).stop.Paused? ==>
              LazyQuery(reg, conn, cur, request, ex, k) == LazyQuery(reg, conn, cur, request, ex, k2)
  {
    if k > 0 {
      var sent := Transmit(reg, conn, request, ex);
      if sent.result.Success? && ex.objs != [] {
        var h := ProcessHeader(cur, ex.objs[0]);
        if h.failure.None? {
          RowsMonotone(RowsOf(reg, h.cur), sent.conn, h.cur, ex.objs[1..], ex.tail, k, k2);
        }
      }
    }
  }

  // ---------------------------------------------------------------------------
  // The query API

  /** `_query`'s varargs rule: exactly one extra argument is the parameter
      list; none, or more than one, sends an empty tuple. */
  function QueryParams(parameters: seq<Value>): Value
  {
    if |parameters| == 1 then parameters[0] else Arr([])
  }

  /** The keys of a query request, in the order the request lists them. */
  function QueryKeys(): seq<Value>
  {
    [Str("endpoint"), Str("operation"), Str("database"), Str("query"), Str("parameters")]
  }

  lemma QueryKeysDistinct()
    ensures Distinct(QueryKeys())
  {
    var ks := QueryKeys();
    assert ks[0].s[0] == 'e' && ks[1].s[0] == 'o' && ks[2].s[0] == 'd' && ks[3].s[0] == 'q' && ks[4].s[0] == 'p';
  }

  /** The query request sent for `operation`. */
  function QueryRequest(conn: Conn, operation: int, sql: Value, parameters: seq<Value>): (r: Value)
    ensures r.Dict? && UniqueKeys(r.entries)
    ensures Keys(r.entries) == QueryKeys()
    ensures Lookup(r.entries, Str("endpoint")) == Some(Str("query"))
    ensures Lookup(r.entries, Str("operation")) == Some(Int(operation))
    ensures Lookup(r.entries, Str("database")) == Some(Database(conn))
    ensures Lookup(r.entries, Str("query")) == Some(sql)
    ensures Lookup(r.entries, Str("parameters")) == Some(if |parameters| == 1 then parameters[0] else Arr([]))
  {
    var d := [(Str("endpoint"), Str("query")),
              (Str("operation"), Int(operation)),
              (Str("database"), conn.dbpath),
              (Str("query"), sql),
              (Str("parameters"), QueryParams(parameters))];
    assert Keys(d) == QueryKeys();
    QueryKeysDistinct();
    LookupEntries(d);
    assert Lookup(d, d[0].0) == Some(d[0].1) && Lookup(d, d[1].0) == Some(d[1].1);
    assert Lookup(d, d[2].0) == Some(d[2].1) && Lookup(d, d[3].0) == Some(d[3].1);
    assert Lookup(d, d[4].0) == Some(d[4].1);
    Dict(d)
  }

  /** A cursor-level call: connection and cursor afterwards, and the result. */
  datatype Call<T> = Call(conn: Conn, cur: CursorState, result: Result<T, Failure>)

  /** Enough pulls to run the generator to its end. */
  function DrainBudget(ex: Exchange): nat
  {
    if ex.Replies? then |ex.objs| + 1 else 1
  }

  /** `list(generator)`: the rows of a finished run, or what it raised. */
  function Drained(run: Run): Call<seq<Value>>
  {
    Call(run.conn, run.cur, if run.stop.Threw? then Failure(run.stop.failure) else Success(run.rows))
  }

  /** The eager form of `_query`. A success means the reply was a header with
      status 0 followed by values that all converted, read to a clean end; the
      result holds one row per value after the header, in order. */
  function Eager(reg: Registry, conn: Conn, cur: CursorState, operation: int, sql: Value,
                 parameters: seq<Value>, ex: Exchange): (c: Call<seq<Value>>)
    ensures c.conn != conn ==> c.conn == conn.(socket := None) && c.result.Failure? && c.result.error.Raises?
                               && c.result.error.error.code == Int(NETWORK_ERROR) && c.result.error.error.cause.Some?
    ensures c.result.Success? ==>
              && ex.Replies? && ex.tail.Complete? && c.conn == conn
              && (ex.objs == [] ==> c.result.value == [] && c.cur == cur)
              && (ex.objs != [] ==>
                    && ProcessHeader(cur, ex.objs[0]) == HeaderOutcome(c.cur, None)
                    && |c.result.value| == |ex.objs| - 1
                    && forall i :: 0 <= i < |c.result.value| ==>
                         ProcessData(reg, c.cur.cols, ex.objs[i + 1]) == Success(c.result.value[i]))
  {
    var run := LazyQuery(reg, conn, cur, QueryRequest(conn, operation, sql, parameters), ex, DrainBudget(ex));
    Drained(run)
  }

  /** The converse: such a reply always succeeds. */
  lemma EagerSucceeds(reg: Registry, conn: Conn, cur: CursorState, operation: int, sql: Value,
                      parameters: seq<Value>, ex: Exchange)
    requires Transmit(reg, conn, QueryRequest(conn, operation, sql, parameters), ex).result.Success?
    requires ex.Replies? && ex.tail.Complete? && ex.objs != []
    requires ProcessHeader(cur, ex.objs[0]).failure.None?
    requires forall i :: 1 <= i < |ex.objs| ==> ProcessData(reg, ProcessHeader(cur, ex.objs[0]).cur.cols, ex.objs[i]).Success?
    ensures Eager(reg, conn, cur, operation, sql, parameters, ex).result.Success?
  {
    var h := ProcessHeader(cur, ex.objs[0]);
    var rest := ex.objs[1..];
    var budget := DrainBudget(ex);
    RowsFacts(RowsOf(reg, h.cur), conn, h.cur, rest, ex.tail, budget);
    var run := Rows(RowsOf(reg, h.cur), conn, h.cur, rest, ex.tail, budget);
    assert LazyQuery(reg, conn, cur, QueryRequest(conn, operation, sql, parameters), ex, budget) == run;
  }

  /** What an eager query raises: the send's failure; for a reply with no
      value, the end of the reply; the header's failure; the conversion error
      of the first value after the header that does not convert; and when all
      convert, what pulling past the last value raises. */
  lemma EagerFailure(reg: Registry, conn: Conn, cur: CursorState, operation: int, sql: Value,
                     parameters: seq<Value>, ex: Exchange)
    ensures var c := Eager(reg, conn, cur, operation, sql, parameters, ex);
            var sent := Transmit(reg, conn, QueryRequest(conn, operation, sql, parameters), ex);
            && (sent.result.Failure? ==> c == Call(sent.conn, cur, Failure(sent.result.error)))
            && (sent.result.Success? && ex.objs == [] ==>
                  c == Call(EndOfReply(conn, ex.tail).conn, cur,
                            if ex.tail.Complete? then Success([]) else Failure(EndOfReply(conn, ex.tail).result.error)))
            && (sent.result.Success? && ex.objs != [] ==>
                  var h := ProcessHeader(cur, ex.objs[0]);
                  var convert := RowsOf(reg, h.cur);
                  var rest := ex.objs[1..];
                  && (h.failure.Some? ==> c == Call(conn, h.cur, Failure(h.failure.value)))
                  && (h.failure.None? ==>
                        && (forall i :: 0 <= i < |rest| && convert(rest[i]).Failure? && AllConvert(convert, rest[..i]) ==>
                              c == Call(conn, h.cur, Failure(convert(rest[i]).error)))
                        && (AllConvert(convert, rest) && !ex.tail.Complete? ==>
                              c == Call(EndOfReply(conn, ex.tail).conn, h.cur, Failure(EndOfReply(conn, ex.tail).result.error)))))
  {
    var sent := Transmit(reg, conn, QueryRequest(conn, operation, sql, parameters), ex);
    if sent.result.Success? && ex.objs != [] {
      var h := ProcessHeader(cur, ex.objs[0]);
      if h.failure.None? {
        RowsOutcome(RowsOf(reg, h.cur), conn, h.cur, ex.objs[1..], ex.tail, DrainBudget(ex));
      }
    }
  }

  /** `execute(sql, *parameters)`. */
  function Execute(reg: Registry, conn: Conn, cur: CursorState, sql: Value, parameters: seq<Value>, ex: Exchange): Call<seq<Value>>
  {
    Eager(reg, conn, cur, EXECUTE, sql, parameters, ex)
  }

  /** `fetchall(sql, *parameters)`. */
  function FetchAll(reg: Registry, conn: Conn, cur: CursorState, sql: Value, parameters: seq<Value>, ex: Exchange): Call<seq<Value>>
  {
    Eager(reg, conn, cur, FETCH, sql, parameters, ex)
  }

  /** `executescript(sql)`. */
  function ExecuteScript(reg: Registry, conn: Conn, cur: CursorState, sql: Value, ex: Exchange): Call<seq<Value>>
  {
    Execute(reg, conn, cur, sql, [], ex)
  }

  /** `fetchiter(sql, *parameters)` consumed by `pulls` calls of `next()`;
      nothing is sent before the first one. */
  function FetchIter(reg: Registry, conn: Conn, cur: CursorState, sql: Value, parameters: seq<Value>,
                     ex: Exchange, pulls: nat): Run
  {
    LazyQuery(reg, conn, cur, QueryRequest(conn, FETCH, sql, parameters), ex, pulls)
  }

  /** `fetchone(sql, *parameters)`: one pull; the first row, or None when the
      reply has no rows. The rest of the reply is left unread. */
  function FetchOne(reg: Registry, conn: Conn, cur: CursorState, sql: Value, parameters: seq<Value>, ex: Exchange): Call<Value>
  {
    var run := FetchIter(reg, conn, cur, sql, parameters, ex, 1);
    Call(run.conn, run.cur,
         if run.stop.Threw? then Failure(run.stop.failure)
         else if run.rows == [] then Success(Nil)
         else Success(run.rows[0]))
  }

  /** `fetchone` reads no further than the first value after the header: its
      result is that value's conversion, whatever follows it; a reply holding
      only the header gives None at a clean end. */
  lemma FetchOneIgnoresRest(reg: Registry, conn: Conn, cur: CursorState, sql: Value, parameters: seq<Value>, ex: Exchange)
    requires Transmit(reg, conn, QueryRequest(conn, FETCH, sql, parameters), ex).result.Success?
    requires ex.Replies? && ex.objs != [] && ProcessHeader(cur, ex.objs[0]).failure.None?
    ensures var one := FetchOne(reg, conn, cur, sql, parameters, ex);
            var h := ProcessHeader(cur, ex.objs[0]);
            && (|ex.objs| >= 2 ==> one == Call(conn, h.cur, ProcessData(reg, h.cur.cols, ex.objs[1])))
            && (|ex.objs| == 1 ==>
                  one == Call(EndOfReply(conn, ex.tail).conn, h.cur,
                              if ex.tail.Complete? then Success(Nil) else Failure(EndOfReply(conn, ex.tail).result.error)))
  {
    var h := ProcessHeader(cur, ex.objs[0]);
    var r := LazyQuery(reg, conn, cur, QueryRequest(conn, FETCH, sql, parameters), ex, 1);
    assert r == Rows(RowsOf(reg, h.cur), conn, h.cur, ex.objs[1..], ex.tail, 1);
    FirstPull(RowsOf(reg, h.cur), conn, h.cur, ex.objs[1..], ex.tail);
    if |ex.objs| >= 2 {
      assert ex.objs[1..][0] == ex.objs[1];
    }
  }

  /** One pull of the rows phase: the first value's row or error, or the end. */
  lemma FirstPull(convert: RowConversion, conn: Conn, cur: CursorState, objs: seq<Value>, tail: Tail)
    ensures var r := Rows(convert, conn, cur, objs, tail, 1);
            && (objs == [] ==> r == Finish(conn, cur, [], tail))
            && (objs != [] ==> r == Run(conn, cur, if convert(objs[0]).Success? then [convert(objs[0]).value] else [],
                                        if convert(objs[0]).Success? then Paused else Threw(convert(objs[0]).error)))
  {
    if objs != [] && convert(objs[0]).Success? {
      assert Rows(convert, conn, cur, objs[1..], tail, 0) == Run(conn, cur, [], Paused);
    }
  }

  /** Only the number of extra arguments matters: exactly one is sent as the
      parameters, anything else is the same as none, and `executescript` is
      `execute` with none. */
  lemma ParametersRule(reg: Registry, conn: Conn, cur: CursorState, sql: Value, parameters: seq<Value>, ex: Exchange)
    ensures |parameters| != 1 ==> Execute(reg, conn, cur, sql, parameters, ex) == Execute(reg, conn, cur, sql, [Arr([])], ex)
    ensures |parameters| != 1 ==> FetchAll(reg, conn, cur, sql, parameters, ex) == FetchAll(reg, conn, cur, sql, [Arr([])], ex)
    ensures ExecuteScript(reg, conn, cur, sql, ex) == Execute(reg, conn, cur, sql, [Arr([])], ex)
  {
  }

  /** The lazy and eager forms agree: a consumer of `fetchiter` sees a prefix
      of what `fetchall` returns, and draining it gives exactly `fetchall`. */
  lemma FetchIterAgreesWithFetchAll(reg: Registry, conn: Conn, cur: CursorState, sql: Value, parameters: seq<Value>,
                                    ex: Exchange, pulls: nat)
    ensures var all := FetchAll(reg, conn, cur, sql, parameters, ex);
            var some := FetchIter(reg, conn, cur, sql, parameters, ex, pulls);
            && (all.result.Success? ==> some.rows <= all.result.value)
            && (pulls >= DrainBudget(ex) ==> Drained(some) == all)
  {
    var request := QueryRequest(conn, FETCH, sql, parameters);
    var budget := DrainBudget(ex);
    if pulls <= budget {
      LazyQueryMonotone(reg, conn, cur, request, ex, pulls, budget);
    } else {
      LazyQueryMonotone(reg, conn, cur, request, ex, budget, pulls);
    }
  }

  /** `fetchone` returns the first row `fetchall` would return on the same
      reply, or None when that has no rows. */
  lemma FetchOneIsFirstRow(reg: Registry, conn: Conn, cur: CursorState, sql: Value, parameters: seq<Value>, ex: Exchange)
    requires FetchAll(reg, conn, cur, sql, parameters, ex).result.Success?
    ensures var rows := FetchAll(reg, conn, cur, sql, parameters, ex).result.value;
            FetchOne(reg, conn, cur, sql, parameters, ex).result == Success(if rows == [] then Nil else rows[0])
  {
    var request := QueryRequest(conn, FETCH, sql, parameters);
    LazyQueryMonotone(reg, conn, cur, request, ex, 1, DrainBudget(ex));
  }

  /** A header with a non-zero status (or none) raises that code with the
      header's message, or "no error message", before any row is produced,
      eagerly or at the first pull, and leaves the cursor as it was. */
  lemma HeaderErrorStopsQuery(reg: Registry, conn: Conn, cur: CursorState, operation: int, sql: Value,
                              parameters: seq<Value>, ex: Exchange, pulls: nat)
    requires Transmit(reg, conn, QueryRequest(conn, operation, sql, parameters), ex).result.Success?
    requires ex.Replies? && ex.objs != [] && ex.objs[0].Dict?
    requires !IsZero(GetOr(ex.objs[0].entries, Str("status"), Int(UNKNOWN_ERROR)))
    ensures var failure := Raises(Error(GetOr(ex.objs[0].entries, Str("status"), Int(UNKNOWN_ERROR)),
                                        GetOr(ex.objs[0].entries, Str("message"), Str("no error message")),
                                        Nil, None));
            && Eager(reg, conn, cur, operation, sql, parameters, ex) == Call(conn, cur, Failure(failure))
            && (pulls > 0 ==>
                  LazyQuery(reg, conn, cur, QueryRequest(conn, operation, sql, parameters), ex, pulls)
                  == Run(conn, cur, [], Threw(failure)))
  {
  }

  /** One statement: run with a parameter set on a connection and cursor. */
  type Statement = (Conn, CursorState, Value, Exchange) -> Call<seq<Value>>

  /** Runs `run` once per parameter set, in order, each from the state the
      previous one left, stopping at the first that raises; the earlier
      calls' effects on the connection and cursor stay. */
  function Sequentially(run: Statement, conn: Conn, cur: CursorState,
                        paramSets: seq<Value>, exs: seq<Exchange>): (c: Call<seq<seq<Value>>>)
    requires |exs| == |paramSets|
    ensures c.result.Success? ==> |c.result.value| == |paramSets|
    decreases |paramSets|
  {
    if paramSets == [] then Call(conn, cur, Success([]))
    else
      var first := run(conn, cur, paramSets[0], exs[0]);
      if first.result.Failure? then Call(first.conn, first.cur, Failure(first.result.error))
      else
        var rest := Sequentially(run, first.conn, first.cur, paramSets[1..], exs[1..]);
        Call(rest.conn, rest.cur,
             if rest.result.Failure? then Failure(rest.result.error)
             else Success([first.result.value] + rest.result.value))
  }

  lemma {:induction false} SequentiallyAppend(run: Statement, conn: Conn, cur: CursorState,
                                              paramSets: seq<Value>, exs: seq<Exchange>, p: Value, ex: Exchange)
    requires |exs| == |paramSets|
    ensures var before := Sequentially(run, conn, cur, paramSets, exs);
            var after := Sequentially(run, conn, cur, paramSets + [p], exs + [ex]);
            var last := run(before.conn, before.cur, p, ex);
            && (before.result.Failure? ==> after == before)
            && (before.result.Success? ==>
                  && after.conn == last.conn && after.cur == last.cur
                  && (last.result.Failure? ==> after.result == Failure(last.result.error))
                  && (last.result.Success? ==> after.result == Success(before.result.value + [last.result.value])))
    decreases |paramSets|
  {
    if paramSets == [] {
      assert paramSets + [p] == [p] && exs + [ex] == [ex];
      assert [p][1..] == [] && [ex][1..] == [];
      var first := run(conn, cur, p, ex);
      assert Sequentially(run, first.conn, first.cur, [], []) == Call(first.conn, first.cur, Success([]));
      if first.result.Success? {
        assert [first.result.value] + [] == [] + [first.result.value];
      }
    } else {
      var first := run(conn, cur, paramSets[0], exs[0]);
      assert (paramSets + [p])[1..] == paramSets[1..] + [p];
      assert (exs + [ex])[1..] == exs[1..] + [ex];
      if first.result.Success? {
        SequentiallyAppend(run, first.conn, first.cur, paramSets[1..], exs[1..], p, ex);
        var rest := Sequentially(run, first.conn, first.cur, paramSets[1..], exs[1..]);
        if rest.result.Success? {
          var last := run(rest.conn, rest.cur, p, ex);
          if last.result.Success? {
            assert [first.result.value] + (rest.result.value + [last.result.value])
                == ([first.result.value] + rest.result.value) + [last.result.value];
          }
        }
      }
    }
  }

  /** `executemany`: `execute(sql, params)` for each parameter set. */
  function ExecuteMany(reg: Registry, conn: Conn, cur: CursorState, sql: Value,
                       paramSets: seq<Value>, exs: seq<Exchange>): (c: Call<seq<seq<Value>>>)
    requires |exs| == |paramSets|
    ensures c.result.Success? ==> |c.result.value| == |paramSets|
  {
    Sequentially((c, k, p, e) => Execute(reg, c, k, sql, [p], e), conn, cur, paramSets, exs)
  }

  /** Adding a parameter set runs one more `execute`, with that set as its
      parameters, from the state the earlier ones left; once one has raised,
      later sets are never run. */
  lemma ExecuteManyAppend(reg: Registry, conn: Conn, cur: CursorState, sql: Value,
                          paramSets: seq<Value>, exs: seq<Exchange>, p: Value, ex: Exchange)
    requires |exs| == |paramSets|
    ensures var before := ExecuteMany(reg, conn, cur, sql, paramSets, exs);
            var after := ExecuteMany(reg, conn, cur, sql, paramSets + [p], exs + [ex]);
            var last := Execute(reg, before.conn, before.cur, sql, [p], ex);
            && (before.result.Failure? ==> after == before)
            && (before.result.Success? ==>
                  && after.conn == last.conn && after.cur == last.cur
                  && (last.result.Failure? ==> after.result == Failure(last.result.error))
                  && (last.result.Success? ==> after.result == Success(before.result.value + [last.result.value])))
  {
    SequentiallyAppend((c, k, q, e) => Execute(reg, c, k, sql, [q], e), conn, cur, paramSets, exs, p, ex);
  }

  // ---------------------------------------------------------------------------
  // Accessors

  /** The `rowcount` property. */
  function Rowcount(cur: CursorState): Value
  {
    cur.rowcount
  }

  /** A new cursor reports -1; after a successful query it reports the
      header's row count, or -1 when the header has none. */
  lemma RowcountAfterQuery(reg: Registry, conn: Conn, cur: CursorState, operation: int, sql: Value,
                           parameters: seq<Value>, ex: Exchange)
    requires Eager(reg, conn, cur, operation, sql, parameters, ex).result.Success?
    requires ex.Replies? && ex.objs != []
    ensures Rowcount(Fresh) == Int(-1)
    ensures Rowcount(Eager(reg, conn, cur, operation, sql, parameters, ex).cur)
            == GetOr(ex.objs[0].entries, Str("rowcount"), Int(-1))
  {
  }

  /** The seven-item description tuple of one column. */
  function Describe(nameAndType: (Value, Value)): Value
  {
    Arr([nameAndType.0, nameAndType.1, Nil, Nil, Nil, Nil, Nil])
  }

  function DescribeAll(cs: seq<Value>): (r: Result<seq<Value>, Failure>)
    ensures r.Success? <==> forall i :: 0 <= i < |cs| ==> Column(cs[i]).Success?
    ensures r.Success? ==> |r.value| == |cs| && forall i :: 0 <= i < |cs| ==> r.value[i] == Describe(Column(cs[i]).value)
  {
    if cs == [] then Success([])
    else
      var rest := DescribeAll(cs[1..]);
      assert forall i :: 1 <= i < |cs| ==> cs[i] == cs[1..][i - 1];
      match Column(cs[0])
      case Failure(f) => Failure(f)
      case Success(nameAndType) =>
        if rest.Failure? then rest else Success([Describe(nameAndType)] + rest.value)
  }

  /** The `description` property: None while the cached columns are falsy,
      otherwise one `(name, type, None, None, None, None, None)` per column. */
  function Description(cur: CursorState): (r: Result<Value, Failure>)
    ensures !Truthy(cur.cols) ==> r == Success(Nil)
    ensures Truthy(cur.cols) && Iter(cur.cols).None? ==> r.Failure?
    ensures Truthy(cur.cols) && Iter(cur.cols).Some? ==>
              var cs := Iter(cur.cols).value;
              && (r.Success? <==> forall i :: 0 <= i < |cs| ==> Column(cs[i]).Success?)
              && (r.Success? ==> r.value.Arr? && |r.value.items| == |cs|
                                 && forall i :: 0 <= i < |cs| ==> r.value.items[i] == Describe(Column(cs[i]).value))
  {
    if !Truthy(cur.cols) then Success(Nil)
    else
      match Iter(cur.cols)
      case None => Failure(Crashes(TypeError("object is not iterable")))
      case Some(cs) =>
        match DescribeAll(cs)
        case Failure(f) => Failure(f)
        case Success(ds) => Success(Arr(ds))
  }
}

=== FILE: errors.dfy ===
/** The client's exception record and the other Python exceptions the
    modelled code lets escape. */
module Errors {
  import opened Wrappers
  import opened Values

  /** `Error(code, message, details=None, original_exception=None)`. The code
      and message come from the server verbatim, so they are any value; the
      original exception is represented by its text. */
  datatype Error = Error(code: Value, message: Value, details: Value, cause: Option<string>)

  /** Exceptions that are not the client's `Error` and escape uncaught. */
  datatype PyException =
    | AttributeError(attr: string)  // e.g. a method called on a socket reference that is None
    | KeyError(key: Value)
    | TypeError(reason: string)
    | ValueError(reason: string)
    | OSError(reason: string)       // a socket failure outside the caught paths
    | OverflowError(reason: string) // an int the wire format has no encoding for
    | UnpackError                   // malformed bytes rejected by the wire decoder

  /** What a failing call raises. */
  datatype Failure = Raises(error: Error) | Crashes(exc: PyException)
}

=== FILE: transport.dfy ===
/** The chunk-stopping rule of the client's socket wrapper. Reading is a
    generator over successive `recv(buf_size)` results of the operating-system socket; it ends at an empty
    read (the peer closed) or right after a read shorter than `buf_size`
    (nothing more is immediately available). */
module Transport {

  newtype byte = b: int | 0 <= b < 256

  type Chunk = seq<byte>

  /** `Socket.recv`'s default buffer size. */
  const DefaultBufSize: nat := 4096

  /** The chunks `Socket.recv(bufSize)` yields when the underlying socket
      returns `received` one after another; the model stops where `received` ends. */
  function Recv(received: seq<Chunk>, bufSize: nat): (out: seq<Chunk>)
    ensures out <= received
    ensures forall i :: 0 <= i < |out| ==> out[i] != []
    ensures forall i :: 0 <= i < |out| - 1 ==> |out[i]| >= bufSize
    ensures (forall i :: 0 <= i < |received| ==> |received[i]| <= bufSize)
            ==> forall i :: 0 <= i < |out| - 1 ==> |out[i]| == bufSize
    ensures |out| < |received| ==> received[|out|] == [] || (|out| > 0 && |out[|out| - 1]| < bufSize)
    decreases |received|
  {
    if received == [] || received[0] == [] then []
    else if |received[0]| < bufSize then [received[0]]
    else
      var rest := Recv(received[1..], bufSize);
      assert forall i :: 1 <= i < |received| ==> received[i] == received[1..][i - 1];
      [received[0]] + rest
  }

  /** Among all prefixes of the received, the yielded chunks are the longest one
      that holds no empty read and no short read before its last element. A
      corollary of the reason `Recv` gives for stopping. */
  lemma RecvStopsAtFirstShortRead(received: seq<Chunk>, bufSize: nat, n: nat)
    requires n <= |received|
    requires forall i :: 0 <= i < n ==> received[i] != []
    requires forall i :: 0 <= i < n - 1 ==> |received[i]| >= bufSize
    ensures n <= |Recv(received, bufSize)|
  {
  }

  /** With the default buffer a first read of fewer than 4096 bytes is all
      the reader yields, whatever the socket would deliver next. */
  lemma DefaultShortReadEndsReading(received: seq<Chunk>)
    requires received != [] && 0 < |received[0]| < DefaultBufSize
    ensures Recv(received, DefaultBufSize) == [received[0]]
  {
  }
}

=== FILE: values.dfy ===
/** The Python objects the client handles: what the wire decoder produces, plus
    instances of application classes that only a registered converter can put
    on the wire. A Python dict is an insertion-ordered list of entries. */
module Values {
  import opened Wrappers

  /** A `Dict` may list a key more than once; every reading of it here
      (lookup, iteration) sees the dict Python builds from such a list: each
      key at its first position, holding its last value. */
  datatype Value =
    | Nil                                  // None
    | Bool(b: bool)
    | Int(i: int)
    | Str(s: string)
    | Arr(items: seq<Value>)               // list or tuple (both travel as wire arrays)
    | Dict(entries: seq<(Value, Value)>)   // dict, entries in insertion order
    | Obj(cls: string, fields: seq<Value>) // instance of an application class

  /** The result of Python's `type(v)`, the key of the outgoing converter map. */
  datatype PyType = NoneType | BoolType | IntType | StrType | ListType | DictType | ClassType(name: string)

  function TypeOf(v: Value): PyType
  {
    match v
    case Nil => NoneType
    case Bool(_) => BoolType
    case Int(_) => IntType
    case Str(_) => StrType
    case Arr(_) => ListType
    case Dict(_) => DictType
    case Obj(c, _) => ClassType(c)
  }

  /** Lists and dicts cannot be dict keys; everything else here can. */
  predicate Hashable(v: Value)
  {
    !v.Arr? && !v.Dict?
  }

  /** Python's `v == 0`: bool is a subclass of int, so `False == 0` holds too. */
  predicate IsZero(v: Value)
  {
    v == Int(0) || v == Bool(false)
  }

  /** Python truthiness (`if not v`). Application objects are truthy. */
  predicate Truthy(v: Value)
  {
    match v
    case Nil => false
    case Bool(b) => b
    case Int(i) => i != 0
    case Str(s) => s != ""
    case Arr(xs) => xs != []
    case Dict(es) => es != []
    case Obj(_, _) => true
  }

  /** The one-character strings a Python `str` iterates over. */
  function Chars(s: string): (r: seq<Value>)
    ensures |r| == |s|
    ensures forall i :: 0 <= i < |s| ==> r[i] == Str([s[i]])
  {
    seq(|s|, i requires 0 <= i < |s| => Str([s[i]]))
  }

  /** What `iter(v)` walks through, or None when Python raises TypeError. A
      dict walks through its keys, each once, where it first occurs. */
  function Iter(v: Value): Option<seq<Value>>
  {
    match v
    case Arr(xs) => Some(xs)
    case Dict(es) => Some(Keys(FromPairs(es)))
    case Str(s) => Some(Chars(s))
    case _ => None
  }

  // ---------------------------------------------------------------------------
  // Dicts as entry lists

  /** The keys of an entry list, in order. */
  function Keys(d: seq<(Value, Value)>): (r: seq<Value>)
    ensures |r| == |d|
    ensures forall i :: 0 <= i < |d| ==> r[i] == d[i].0
  {
    if d == [] then [] else [d[0].0] + Keys(d[1..])
  }

  predicate Distinct(s: seq<Value>)
  {
    forall i, j :: 0 <= i < j < |s| ==> s[i] != s[j]
  }

  /** A Python dict never holds the same key twice. */
  predicate UniqueKeys(d: seq<(Value, Value)>)
  {
    Distinct(Keys(d))
  }

  /** The value bound to `k`; when an entry list repeats a key, the last entry
      wins, which is what building a dict from it does. */
  function Lookup(d: seq<(Value, Value)>, k: Value): Option<Value>
  {
    if d == [] then None
    else
      var later := Lookup(d[1..], k);
      if later.Some? then later
      else if d[0].0 == k then Some(d[0].1)
      else None
  }

  /** `d.get(k, default)`. */
  function GetOr(d: seq<(Value, Value)>, k: Value, default: Value): Value
  {
    match Lookup(d, k)
    case Some(v) => v
    case None => default
  }

  /** A key is bound exactly when it occurs among the keys. */
  lemma {:induction false} LookupDefined(d: seq<(Value, Value)>, k: Value)
    ensures Lookup(d, k).Some? <==> k in Keys(d)
  {
    if d != [] {
      LookupDefined(d[1..], k);
      assert Keys(d) == [d[0].0] + Keys(d[1..]);
    }
  }

  /** The entry at `i` is what a lookup of its key returns when no later entry
      repeats that key. */
  lemma {:induction false} LookupLast(d: seq<(Value, Value)>, i: nat)
    requires i < |d|
    requires forall j :: i < j < |d| ==> d[j].0 != d[i].0
    ensures Lookup(d, d[i].0) == Some(d[i].1)
  {
    if i == 0 {
      LookupDefined(d[1..], d[0].0);
    } else {
      LookupLast(d[1..], i - 1);
    }
  }

  /** In a dict every entry is what a lookup of its key returns. */
  lemma {:induction false} LookupEntries(d: seq<(Value, Value)>)
    requires UniqueKeys(d)
    ensures forall i :: 0 <= i < |d| ==> Lookup(d, d[i].0) == Some(d[i].1)
  {
    forall i | 0 <= i < |d|
      ensures Lookup(d, d[i].0) == Some(d[i].1)
    {
      assert forall j :: i < j < |d| ==> Keys(d)[j] != Keys(d)[i];
      LookupLast(d, i);
    }
  }

  /** `d[k] = v` on a dict: an existing key keeps its position and takes the
      new value; a new key goes to the end. */
  function Insert(d: seq<(Value, Value)>, k: Value, v: Value): (r: seq<(Value, Value)>)
    requires UniqueKeys(d)
    ensures UniqueKeys(r)
    ensures Keys(r) == if k in Keys(d) then Keys(d) else Keys(d) + [k]
    ensures forall j :: Lookup(r, j) == if j == k then Some(v) else Lookup(d, j)
  {
    if d == [] then
      Cons((k, v), []);
      [(k, v)]
    else
      Cons(d[0], d[1..]);
      assert [d[0]] + d[1..] == d;
      if d[0].0 == k then
        LookupDefined(d[1..], k);
        Cons((k, v), d[1..]);
        [(k, v)] + d[1..]
      else
        var rest := Insert(d[1..], k, v);
        Cons(d[0], rest);
        [d[0]] + rest
  }

  /** An entry in front of an entry list: its key comes first, a later
      binding of the same key wins over it, and the keys stay distinct
      exactly when the new key is not among the others. */
  lemma Cons(e: (Value, Value), rest: seq<(Value, Value)>)
    ensures Keys([e] + rest) == [e.0] + Keys(rest)
    ensures forall j :: Lookup([e] + rest, j) ==
              if Lookup(rest, j).Some? then Lookup(rest, j) else if e.0 == j then Some(e.1) else None
    ensures UniqueKeys([e] + rest) <==> e.0 !in Keys(rest) && UniqueKeys(rest)
  {
    assert ([e] + rest)[1..] == rest;
    var ks := Keys([e] + rest);
    assert ks[1..] == Keys(rest);
    if e.0 !in Keys(rest) && UniqueKeys(rest) {
      forall i, j | 0 <= i < j < |ks|
        ensures ks[i] != ks[j]
      {
        if i > 0 {
          assert ks[i] == Keys(rest)[i - 1] && ks[j] == Keys(rest)[j - 1];
        } else {
          assert ks[j] == Keys(rest)[j - 1];
        }
      }
    }
    if UniqueKeys([e] + rest) {
      forall i | 0 <= i < |Keys(rest)|
        ensures Keys(rest)[i] != e.0
      {
        assert ks[i + 1] == Keys(rest)[i];
      }
    }
  }

  /** The keys of `ks` that are not in `seen`, each at its first occurrence,
      in order: where a dict puts the keys it did not have yet. */
  function NewKeys(seen: seq<Value>, ks: seq<Value>): seq<Value>
    decreases |ks|
  {
    if ks == [] then []
    else if ks[0] in seen then NewKeys(seen, ks[1..])
    else [ks[0]] + NewKeys(seen + [ks[0]], ks[1..])
  }

  /** `dict.update` with a sequence of pairs, inserted one after another: the
      old keys keep their places, new keys follow in the order they first
      occur, and every key takes the last value the pairs give it. */
  function Update(d: seq<(Value, Value)>, ps: seq<(Value, Value)>): (r: seq<(Value, Value)>)
    requires UniqueKeys(d)
    ensures UniqueKeys(r)
    ensures Keys(r) == Keys(d) + NewKeys(Keys(d), Keys(ps))
    ensures forall k :: k in Keys(r) <==> k in Keys(d) || k in Keys(ps)
    ensures forall k :: Lookup(r, k) == if Lookup(ps, k).Some? then Lookup(ps, k) else Lookup(d, k)
    decreases |ps|
  {
    if ps == [] then d
    else
      var k := ps[0].0;
      var r := Update(Insert(d, k, ps[0].1), ps[1..]);
      assert Keys(ps) == [k] + Keys(ps[1..]);
      InsertThenNewKeys(d, k, ps[0].1, Keys(ps[1..]));
      r
  }

  /** Inserting one key and then the rest places keys where inserting them
      all at once does. */
  lemma InsertThenNewKeys(d: seq<(Value, Value)>, k: Value, v: Value, rest: seq<Value>)
    requires UniqueKeys(d)
    ensures Keys(Insert(d, k, v)) + NewKeys(Keys(Insert(d, k, v)), rest) == Keys(d) + NewKeys(Keys(d), [k] + rest)
  {
    assert ([k] + rest)[1..] == rest;
    if k !in Keys(d) {
      assert (Keys(d) + [k]) + NewKeys(Keys(d) + [k], rest) == Keys(d) + ([k] + NewKeys(Keys(d) + [k], rest));
    }
  }

  /** `dict(pairs)`: duplicate keys keep their first position and their last value. */
  function FromPairs(ps: seq<(Value, Value)>): (r: seq<(Value, Value)>)
    ensures UniqueKeys(r)
    ensures Keys(r) == NewKeys([], Keys(ps))
    ensures forall k :: k in Keys(r) <==> k in Keys(ps)
    ensures forall k :: Lookup(r, k) == Lookup(ps, k)
  {
    Update([], ps)
  }

  /** The ints the wire format encodes: a positive one as an unsigned 64-bit
      integer, any other as a signed one. */
  predicate WireInt(i: int)
  {
    -0x8000_0000_0000_0000 <= i < 0x1_0000_0000_0000_0000
  }

  /** A value the wire format carries as it is: no application objects and no
      int out of the 64-bit range inside. */
  predicate Native(v: Value)
  {
    match v
    case Arr(xs) => forall i :: 0 <= i < |xs| ==> Native(xs[i])
    case Dict(es) => forall i :: 0 <= i < |es| ==> Native(es[i].0) && Native(es[i].1)
    case Obj(_, _) => false
    case Int(i) => WireInt(i)
    case _ => true
  }

  /** The value nests no deeper than `limit` containers, counting as the
      wire encoder does: each container spends one level for its elements. */
  predicate FitsIn(v: Value, limit: int)
  {
    && limit >= 0
    && match v
       case Arr(xs) => forall i :: 0 <= i < |xs| ==> FitsIn(xs[i], limit - 1)
       case Dict(es) => forall i :: 0 <= i < |es| ==> FitsIn(es[i].0, limit - 1) && FitsIn(es[i].1, limit - 1)
       case _ => true
  }
}

=== FILE: wrappers.dfy ===
/** Option and Result, the failure-carrying shapes the rest of the model returns. */
module Wrappers {

  datatype Option<+T> = None | Some(value: T)

  /** Either a value or the exception that replaced it. */
  datatype Result<+R, +E> = Success(value: R) | Failure(error: E)
}
